=== FILE: README.md ===
# Quiz backend: a Dafny model of its routes

This project models the request handling of a small quiz REST backend
(Express over MongoDB): the bearer-token middleware, the quiz and question
CRUD routes, attempt grading, and quiz analytics. The three MongoDB
collections become maps from identifier to document (`Store.Db`). Each
route is a pure function, or a method where the store picks an order.
It takes the store and the request and returns the new store with the
answer (`Store.Reply`). Every refusal leaves the store unchanged, and the
contracts say so.

Modules follow the program's structure:

- `Http`: the refusals a route sends (`ApiError`) and their status codes.
- `Json`: request-body values, JavaScript truthiness, and `===`.
- `Validators`: the express-validator checks the routes use, stated on
  JSON values. `isInt` is modelled through the number's decimal text.
- `ObjectIds`: `isMongoId()`, `new ObjectId(text)` (case-insensitive), and
  the `_id` sort order.
- `Collect`: listing a map's entries in a store-chosen order, and an
  insertion sort by integer key (the `sort(...)` of a query).
- `Store`: the documents, the database, and the `find` filters.
- `Auth`: `middleware/auth.js`.
- `Scoring` and `Attempts`: `routes/api/attempts.js`.
- `Questions`: `routes/api/questions.js`.
- `Quizzes`: `routes/api/quizzes.js`.

Parameters stand in for what the code gets from outside:

- The clock is `now`.
- The identifier `insertOne` generates is `newId`, which must be fresh.
- JWT verification with the server secret is `verify: string -> Option<Claims>`.
- The sort order the store picks for equal keys is chosen inside
  `Collect.Entries`. The methods that grade or list return that order as an
  out-parameter, so their contracts can refer to it.

Behaviours of the code that are easy to miss:

- Analytics counts a participant only for a truthy email other than
  `anonymous`. Empty emails are excluded too, not only `anonymous`.
- `isInt({ min: 0 })` also accepts numeric strings such as `"1"`. Create
  stores them as strings. Strict equality in grading never matches such a
  key against a number. Update silently ignores a string index, because it
  only applies `typeof ... === 'number'`.
- Update applies text and title only when they are truthy, and options
  whenever given. It applies the answer index only when it is a number.
  The length rules on question text and quiz title are not rechecked on
  update; only the two-option minimum is.
- The token's subject must be identifier text for `new ObjectId(req.user.id)`.
  When it is a string that is not, the list and create routes throw
  (`ApiError.Uncaught`).
- `isMongoId()` is `isHexadecimal` plus a length of 24, and `isHexadecimal`
  allows a leading `0x` or `0h`. Such a parameter, for example `0x` and 22
  zeros, passes the check and then makes `new ObjectId` throw. Every route
  with an id parameter answers it with `Uncaught`, not with 400, when its
  other checks pass. Question create still answers 400 for an answer index
  out of range, because its range test comes before `new ObjectId`.
- `isLength({ min: 3 })` does not count the variation selectors U+FE0E and
  U+FE0F, so `"ab"` followed by U+FE0F is too short.
- Numbers are the integers up to `Number.MAX_SAFE_INTEGER` in size. In that
  range `String(n)` is plain decimal text and `===` is integer equality.
- The rounded score reaches its extremes early: with 201 questions, 200
  correct already score 100 and 1 correct still scores 0. A score of 100
  does not mean every question was answered correctly.

## Model

| member | source | states |
|---|---|---|
| Http.StatusCode | routes/api/questions.js:23-51 | validation, empty-quiz and out-of-range refusals are exactly the 400s; a missing document is exactly the 404; exactly an authentication failure is 401 (middleware/auth.js:6 and :12), and exactly an uncaught exception is 500 (the error handler in api/index.js:61-66) |
| Json.StrictEqualsIsPrimitiveEquality | routes/api/attempts.js:22 | `===` between decoded values holds exactly for equal primitives; arrays and objects never match |
| Validators.DecimalDigitsRoundTrip | routes/api/questions.js:20 | reading back the decimal digits of a natural number gives the number |
| Validators.DecimalRoundTrip | routes/api/questions.js:20 | `String(n)` is integer text whose value is `n` |
| Validators.NonNegativeIntCases | routes/api/questions.js:20 | `isInt({min: 0})` holds of a number exactly when it is >= 0, of a string exactly when it spells such an integer, and of nothing else |
| Validators.NumericValue | routes/api/questions.js:26 | the number a validated answer index compares as is non-negative, and is the number itself for a number |
| Validators.MeasuredLengthWithoutSelectors | routes/api/quizzes.js:22 | without variation selectors, the length `isLength` measures is the character count |
| Validators.SelectorNotMeasured | routes/api/questions.js:18 | `"ab"` followed by U+FE0F measures 2, so it fails `isLength({ min: 3 })` |
| ObjectIds.Parse | routes/api/questions.js:13 | `new ObjectId(s)` succeeds exactly on 24 hex digits, lower-cases them, and only accepts text that `isMongoId()` also accepts |
| ObjectIds.ValidatedIdCases | routes/api/quizzes.js:61-65 | after `isMongoId()` passes, `new ObjectId` throws exactly when the parameter has the `0x`/`0h` prefix |
| ObjectIds.PrefixedIdPassesCheck | routes/api/attempts.js:39-43 | `0x` and 22 zeros passes `isMongoId()` and is refused by `new ObjectId` |
| ObjectIds.ParseOfCanonical | routes/api/questions.js:29 | an identifier's text parses back to the same identifier |
| ObjectIds.ParseIgnoresCase | routes/api/quizzes.js:44 | two hexadecimal parameters name the same document exactly when they agree up to letter case |
| ObjectIds.HexValueInjective | routes/api/attempts.js:17 | equal-length lower-case hex strings with the same value are equal |
| ObjectIds.IdOrderInjective | routes/api/attempts.js:17 | the `_id` sort key of two identifiers is equal exactly when the identifiers are |
| Collect.Entries | routes/api/questions.js:13 | a query result lists every document of the filtered collection exactly once |
| Collect.EnumeratesMembers | routes/api/questions.js:13 | every listed entry is in the collection with its stored document, and every stored document is listed |
| Collect.Insert | routes/api/quizzes.js:16 | inserting into a sorted list keeps it sorted, adds exactly the one element, and puts either it or the old head first |
| Collect.SortBy | routes/api/quizzes.js:16 | the sorted result is ordered by the key and is a permutation of the input |
| Collect.SortedUnique | routes/api/attempts.js:17 | two sorted lists of the same elements are equal when the sort key has no ties among them |
| Auth.Split | middleware/auth.js:5 | `split(' ')` yields at least one part, no part contains a space, and joining the parts with spaces gives back the header |
| Auth.SplitWithoutSeparator | middleware/auth.js:5 | a string without a space splits into itself alone |
| Auth.SplitAfterPiece | middleware/auth.js:5 | a space-free piece followed by a space splits off as the first part |
| Auth.SplitJoin | middleware/auth.js:5 | splitting undoes joining for space-free parts |
| Auth.BearerToken | middleware/auth.js:4-6 | a missing header yields no token; a token is only ever the text after `Bearer ` and contains no space |
| Auth.BearerTokenExactly | middleware/auth.js:5-8 | a token is handed to verification exactly when the header is `Bearer ` followed by a space-free token, and that token is the second part |
| Auth.MalformedHeadersRejected | middleware/auth.js:6 | a lone `Bearer`, a lower-case scheme and a doubled space are all rejected |
| Auth.Authenticate | middleware/auth.js:3-13 | every refusal is 401 and a missing header is refused; an accepted request has a bearer header whose token verified to claims equal to the user's id and email |
| Auth.AuthenticateDecidedByVerifier | middleware/auth.js:8-12 | for a well-shaped header, a failed verification gives 401 and a successful one gives `{id: sub, email}` |
| Scoring.CountCorrect | routes/api/attempts.js:20-23 | the loop's score is the number of positions below both lengths whose answer is strictly equal to the key, and is at most the question and answer counts |
| Scoring.CorrectCountBounds | routes/api/attempts.js:21 | the correct count never exceeds the number of questions nor the number of answers |
| Scoring.ExtraAnswersIgnored | routes/api/attempts.js:21 | answers appended beyond the question count never change which positions score |
| Scoring.MissingAnswersScoreNothing | routes/api/attempts.js:21 | a short answer list scores exactly what any extension of it scores on the answered positions |
| Scoring.AllCorrectIff | routes/api/attempts.js:21-22 | full marks exactly when there are enough answers and every one is strictly equal to its key |
| Scoring.NoneCorrectIff | routes/api/attempts.js:21-22 | zero exactly when no compared position matches |
| Scoring.NumberNeverMatchesNumericString | routes/api/attempts.js:22 | a numeric answer never scores against a key stored as a string |
| Scoring.RoundHalfUp | routes/api/attempts.js:24 | the result is the integer nearest to `num/den`, halves rounded up |
| Scoring.RoundHalfUpUnique | routes/api/attempts.js:24 | no other integer satisfies the rounding bounds |
| Scoring.RoundHalfUpMonotone | routes/api/attempts.js:48 | rounding preserves order |
| Scoring.Percentage | routes/api/attempts.js:24 | the percentage lies in [0,100] when the count is within the total, is 100 for all correct and 0 for none |
| Scoring.PercentageBounds | routes/api/attempts.js:24 | any integer meeting the rounding bounds for a count within the total lies in [0,100] |
| Scoring.PercentageExtremes | routes/api/attempts.js:24 | the rounded percentage is 100 exactly when at least 99.5% of the quiz's questions are answered correctly, and 0 exactly when fewer than 0.5% are, so neither extreme needs all or none correct |
| Scoring.RoundedExtremesExample | routes/api/attempts.js:24 | 200 correct of 201 scores 100, and 1 correct of 201 scores 0 |
| Scoring.ShortAnswerExample | routes/api/attempts.js:17-24 | keys 0,1,2 answered 0,1 give 2 correct and 67 percent |
| Attempts.OrderedQuestions | routes/api/attempts.js:17 | the graded questions are exactly the quiz's questions, sorted by `_id` ascending, and no other `_id`-sorted listing of them exists |
| Attempts.GradingOrderUnique | routes/api/attempts.js:17 | any two `_id`-sorted listings of the same questions are the same list, because identifiers never tie on `_id` |
| Attempts.Submit | routes/api/attempts.js:8-35 | bad input gives 400, a prefixed id makes `new ObjectId` throw, and no questions gives 400, all leaving the store unchanged; success exactly when the input is valid, the id is plain hex and the quiz has questions; a success grades against the `_id`-ordered questions, the only order the store can give them, returns total, correct and percentage within their bounds, and inserts exactly one attempt carrying the email or `anonymous`; well-formed attempts stay well-formed |
| Attempts.SubmitDeterministic | routes/api/attempts.js:8-35 | the same submission against the same store always gets the same reply and the same inserted attempt |
| Attempts.DistinctEmails | routes/api/attempts.js:50 | the set built is exactly the distinct truthy non-`anonymous` emails, and has no more elements than there are attempts |
| Attempts.ParticipantsOfLast | routes/api/attempts.js:50 | one more attempt adds at most its own email to the set, and only when it counts as a participant |
| Attempts.SumPercentAppend | routes/api/attempts.js:48 | the reduce sum over a concatenation is the sum of the sums |
| Attempts.SumPercentRemove | routes/api/attempts.js:48 | taking one attempt out of the list takes exactly its percentage out of the sum |
| Attempts.SumPercentPermutation | routes/api/attempts.js:48 | the reduce sum does not depend on the order of the attempts |
| Attempts.SumPercentBounds | routes/api/attempts.js:48 | the sum of well-formed percentages lies between 0 and 100 per attempt |
| Attempts.AverageScore | routes/api/attempts.js:47-49 | 0 without attempts and no division; otherwise the rounded mean of the percentages; within [0,100] for well-formed attempts |
| Attempts.Summarize | routes/api/attempts.js:46-63 | the count is the number of attempts, participants the number of distinct counted emails (never more than the count), all zero and empty for no attempts, and one view per attempt in order |
| Attempts.SummaryOrderIndependent | routes/api/attempts.js:45-50 | the count, participants and average are the same for any two attempt lists holding the same attempts |
| Attempts.AverageOrderIndependent | routes/api/attempts.js:47-49 | the average is the same for any order of the attempts |
| Attempts.ParticipantsPermutation | routes/api/attempts.js:50 | reordering attempts does not change their participants |
| Attempts.NewestAttempts | routes/api/attempts.js:45 | the listed attempts are exactly the quiz's attempts, newest first |
| Attempts.ParticipantsOfEnumeration | routes/api/attempts.js:50 | the participants of a query result are those of the stored attempts it lists |
| Attempts.SummaryOfEnumeration | routes/api/attempts.js:45-50 | the summary of any listing of the stored attempts counts them, counts their distinct participants, averages within [0,100] when they are well formed, and is all zeros when there are none |
| Attempts.Analytics | routes/api/attempts.js:39-64 | a bad id gives 400 and a prefixed one throws; for any plain hex id the count and distinct participants are those of the stored attempts, the average is the one every listing of them gives and is in [0,100] for well-formed attempts, the list is newest first, and no attempts gives all zeros |
| Attempts.DocumentsPermutation | routes/api/attempts.js:45 | two listings of the same entries hold the same attempts |
| Attempts.EnumerationsSummarizeAlike | routes/api/attempts.js:45-50 | any two listings of the stored attempts give the same count, participants and average |
| Attempts.AnalyticsFiguresDeterministic | routes/api/attempts.js:39-64 | two requests for the same quiz against the same store report the same count, participants and average, whatever order the store lists the attempts in |
| Questions.ListQuestions | routes/api/questions.js:9-15 | a bad id gives 400 and a prefixed one throws; success exactly for a plain hex id, with exactly the questions whose quizId equals it |
| Questions.CheckNewQuestion | routes/api/questions.js:17-27 | the create checks in their order: 400 exactly on a failed field check, the range error exactly when the index is not below the option count, a throw exactly for a prefixed quiz id; otherwise the document to store, whose text measures at least 3, with at least 2 options and 0 <= answerIndex < options |
| Questions.CreateQuestion | routes/api/questions.js:17-31 | 401 exactly without authentication; 400 exactly on failed checks (text measuring under 3, fewer than 2 options, bad index); a separate range error exactly when the index is not below the option count; a throw exactly for a prefixed quiz id that passed all of these; all refusals leave the store unchanged; otherwise success, inserting exactly the new question, which satisfies 0 <= answerIndex < options |
| Questions.CreateIgnoresQuizExistence | routes/api/questions.js:17-27 | a question can be created under a quiz id that no quiz has |
| Questions.UpdateQuestion | routes/api/questions.js:33-44 | 401, 400, a throw for a prefixed id, or 404 exactly when the id is absent, all leaving the store unchanged; otherwise success, which changes only the addressed question: text if truthy, options if given, the answer index if a number, and `updatedAt` |
| Questions.UpdateTruthinessQuirks | routes/api/questions.js:38-40 | an answer index of 0 is applied while an empty text is ignored |
| Questions.UpdateIgnoresStringAnswerIndex | routes/api/questions.js:40 | a numeric-string answer index passes the checks but is not applied |
| Questions.UpdateCanBreakAnswerRange | routes/api/questions.js:33-40 | an update can leave the answer index at or beyond the option count |
| Questions.UpdateIdempotent | routes/api/questions.js:37-41 | repeating an update at the same time changes nothing further |
| Questions.DeleteQuestion | routes/api/questions.js:46-53 | 401, 400, a throw for a prefixed id, or 404 exactly when the id is absent, all leaving the store unchanged; otherwise success, removing that question only |
| Questions.CreateThenListQuestions | routes/api/questions.js:9-15 | after a create, listing its quiz gives the earlier questions unchanged plus the new one |
| Questions.CreateThenDeleteQuestion | routes/api/questions.js:46-52 | deleting a just-created question by its identifier text succeeds and gives back the store as it was before the create |
| Questions.DeleteThenListQuestions | routes/api/questions.js:9-15 | after a delete, every quiz lists what it listed before, less the deleted question |
| Quizzes.ListQuizzes | routes/api/quizzes.js:9-19 | 401 exactly without authentication, a throw exactly when the token subject is not identifier text, otherwise exactly the caller's quizzes, each once, projected, ordered by createdAt descending |
| Quizzes.ProjectedListing | routes/api/quizzes.js:12-17 | projecting a sorted listing of one owner's quizzes gives each of them once, with that owner, newest first |
| Quizzes.CheckNewQuiz | routes/api/quizzes.js:21-34 | 400 exactly when the title measures under 3 or a given description is not a string; a throw exactly when the caller id is not identifier text; otherwise the document to store, owned by the caller, with the title as given and the description defaulting to "" |
| Quizzes.CreateQuiz | routes/api/quizzes.js:21-38 | 401 exactly without authentication; 400 exactly when the title measures under 3 or the description is not a string; a throw exactly when the token subject is not identifier text; otherwise success, inserting one quiz owned by the caller, with the description defaulting to "" |
| Quizzes.GetQuiz | routes/api/quizzes.js:40-47 | with no caller involved: 400 for a bad id, a throw for a prefixed one, 404 exactly when the id is absent, and otherwise that stored quiz |
| Quizzes.CreateThenGet | routes/api/quizzes.js:35-46 | reading a just-created quiz by the identifier text create answered with finds exactly the stored document, with the title as sent |
| Quizzes.CreateLeavesOtherQuizzes | routes/api/quizzes.js:35-46 | a create changes the answer of a read only for the new identifier |
| Quizzes.PrefixedIdThrows | routes/api/quizzes.js:40-44 | reading the quiz `0x` and 22 zeros ends in an uncaught exception, not a 400 |
| Quizzes.UpdateQuiz | routes/api/quizzes.js:49-59 | 401, 400, a throw for a prefixed id, or 404 exactly when the id is absent, all leaving the store unchanged; otherwise success, which sets title and description only when truthy, refreshes `updatedAt`, and changes nothing else |
| Quizzes.UpdateTitleLengthUnchecked | routes/api/quizzes.js:49-55 | an update stores a 2-character title and ignores an empty one |
| Quizzes.MutationsIgnoreCaller | routes/api/quizzes.js:49-69 | update and delete give the same outcome for any two authenticated callers |
| Quizzes.DeleteQuiz | routes/api/quizzes.js:61-69 | 401, 400, a throw for a prefixed id, or 404 exactly when the quiz is absent, all removing nothing; otherwise success, removing the quiz and exactly the questions naming it, and leaving the other questions and all attempts intact |
| Quizzes.DeleteEmptiesQuestionList | routes/api/quizzes.js:65-67 | after a delete the quiz lists no questions, and the removed questions are exactly those it listed before |
| Quizzes.CascadeSplit | routes/api/quizzes.js:67 | removing a quiz's questions leaves none that name it, keeps every other question, and shrinks the collection by exactly the number removed |

## Left out

- `routes/api/auth.js` (register and login) is not part of this model. It
  only wraps bcrypt hashing, JWT signing and the library's email checks,
  none of which can be seen.
- `db.js` is not part of this model. It is connection setup and global state.
- `api/index.js` is not part of this model. It is framework wiring, and its
  error handler only appears as `ApiError.Uncaught`.
- `models/Quiz.js` is not part of this model. No route uses that schema.
- JWT verification, its secret and token expiry are the parameter `verify`.
- Verified tokens whose `sub` claim is missing or not a string are left out:
  `Auth.Claims.sub` is a string. The server signs `sub` as an identifier's
  text (routes/api/auth.js:23 and :40), so only a token signed elsewhere
  with the same secret could lack it. For such a token `new ObjectId`
  makes a fresh identifier instead of throwing. The quiz list would then be
  empty, and create would store a quiz that no user owns.
- `isEmail().normalizeEmail()` is abstracted as `Attempts.EmailField`:
  absent, a normalised address, or rejected.
- express-validator's per-element treatment of array values is left out.
  So is `new ObjectId` on a 12-character token subject, which some driver
  versions read as raw bytes.
- JSON numbers that are not integers, or are larger in size than
  `Number.MAX_SAFE_INTEGER`, are left out: `JNum` holds only safe integers.
  Beyond that bound the parser rounds, `===` can equate different integers,
  and from 1e21 on `String(n)` uses exponent notation, which `isInt` rejects.
- Lone UTF-16 surrogates in strings are left out: a character here is a
  Unicode scalar value. `isLength` counts a lone surrogate as one unit.
- The two `new Date()` calls of a create are one clock reading, `now`.
- The listing order of `ListQuestions` (the store's natural order) is left
  out. The route is modelled as the set of matching questions.
- Response bodies, the JSON envelope and the error-message keys are left out.
  The projection of the quiz list is kept.
- Whether an uncaught exception becomes a 500 or an unanswered request
  depends on the Express version. It is modelled as `Uncaught`.
- Concurrency and the non-atomic cascade delete are left out. Each route is
  one atomic step.
- Scoring.Percentage: exact rational rounding of `correct * 100 / total`,
  while the source rounds a double. The two can differ when the exact value
  is a half, for example 29 of 200: the double `29/200*100` falls just below
  14.5.
- Attempts.AverageScore: exact rounding of `sum / count`. For integer sums
  this agrees with the double computation, but that agreement is not proved.

=== FILE: attempts.dfy ===
/** The attempt routes: `POST /quizzes/:quizId/attempts` grades a submission
    against the quiz's questions and records it; `GET /quizzes/:quizId/analytics`
    summarises the recorded attempts. Neither route is authenticated. */
module Attempts {
  import opened Http
  import opened Json
  import opened Validators
  import opened ObjectIds
  import opened Store
  import opened Collect
  import opened Scoring

  /** The `email` field once `optional().isEmail().normalizeEmail()` has
      run: left out, a normalised address, or rejected. */
  datatype EmailField = NoEmail | Normalized(address: string) | NotAnEmail

  datatype AttemptBody = AttemptBody(answers: Field, email: EmailField)

  /** The response body of a graded submission. */
  datatype Graded = Graded(total: int, correct: int, percentage: int)

  /** The request checks: a quiz id, a non-empty `answers` array
      and, when given, an acceptable email. */
  predicate ValidSubmission(quizIdParam: string, body: AttemptBody)
  {
    IsMongoId(quizIdParam) && IsArrayOfLength(body.answers, 1) && !body.email.NotAnEmail?
  }

  /** `req.body.email || 'anonymous'`. */
  function RecordedEmail(email: EmailField): string
  {
    if email.Normalized? && email.address != "" then email.address else "anonymous"
  }

  /** What every recorded attempt satisfies: at least one question, a
      correct count within it, and the matching rounded percentage. */
  predicate WellFormed(a: Attempt)
  {
    0 < a.total && 0 <= a.correct <= a.total && a.percentage == Percentage(a.correct, a.total)
  }

  predicate AttemptsWellFormed(attempts: map<ObjectId, Attempt>)
  {
    forall id :: id in attempts ==> WellFormed(attempts[id])
  }

  function ByIdOrder(e: (ObjectId, Question)): int
  {
    IdOrder(e.0)
  }

  /** Sorting by `_id` leaves no choice: two `_id`-sorted listings of the
      same questions are the same list. */
  lemma GradingOrderUnique(m: map<ObjectId, Question>, a: seq<(ObjectId, Question)>, b: seq<(ObjectId, Question)>)
    requires Enumerates(a, m) && Enumerates(b, m)
    requires SortedBy(a, ByIdOrder) && SortedBy(b, ByIdOrder)
    ensures a == b
  {
    EnumeratesMembers(a, m);
    forall i, j | 0 <= i < |a| && 0 <= j < |a| && ByIdOrder(a[i]) == ByIdOrder(a[j])
      ensures a[i] == a[j]
    {
      IdOrderInjective(a[i].0, a[j].0);
    }
    SortedUnique(a, b, ByIdOrder);
  }

  /** `find({ quizId }).sort({ _id: 1 })` on the questions collection: the
      one `_id`-sorted listing of the quiz's questions. */
  method OrderedQuestions(questions: map<ObjectId, Question>, quizId: ObjectId)
    returns (ordered: seq<(ObjectId, Question)>)
    ensures Enumerates(ordered, QuestionsOf(questions, quizId))
    ensures |ordered| == |QuestionsOf(questions, quizId)|
    ensures SortedBy(ordered, ByIdOrder)
    ensures forall other :: Enumerates(other, QuestionsOf(questions, quizId)) && SortedBy(other, ByIdOrder) ==>
      other == ordered
  {
    var found := Entries(QuestionsOf(questions, quizId));
    ordered := SortBy(found, ByIdOrder);
    assert |multiset(ordered)| == |multiset(found)|;
    forall other | Enumerates(other, QuestionsOf(questions, quizId)) && SortedBy(other, ByIdOrder)
      ensures other == ordered
    {
      GradingOrderUnique(QuestionsOf(questions, quizId), other, ordered);
    }
  }

  /** The answer keys of questions, in order. */
  function AnswerKeys(ordered: seq<(ObjectId, Question)>): (keys: seq<Json>)
    ensures |keys| == |ordered|
    ensures forall i :: 0 <= i < |ordered| ==> keys[i] == ordered[i].1.answerIndex
  {
    seq(|ordered|, i requires 0 <= i < |ordered| => ordered[i].1.answerIndex)
  }

  /** Grading a submission. `graded` is the quiz's questions in the order
      the store sorted them, which is the order answers are matched in. */
  method Submit(db: Db, quizIdParam: string, body: AttemptBody, now: Time, newId: ObjectId)
    returns (reply: Reply<Graded>, graded: seq<(ObjectId, Question)>)
    requires newId !in db.attempts
    ensures !ValidSubmission(quizIdParam, body) ==> reply == Reply(db, Err(ValidationFailed))
    ensures ValidSubmission(quizIdParam, body) && Parse(quizIdParam).None? ==> reply == Reply(db, Err(Uncaught))
    ensures ValidSubmission(quizIdParam, body) && Parse(quizIdParam).Some? ==>
      var quizId := Parse(quizIdParam).value;
      && Enumerates(graded, QuestionsOf(db.questions, quizId))
      && SortedBy(graded, ByIdOrder)
      && (forall other :: Enumerates(other, QuestionsOf(db.questions, quizId)) && SortedBy(other, ByIdOrder) ==>
            other == graded)
      && (QuestionsOf(db.questions, quizId) == map[] <==> reply.result == Err(NoQuestions))
    ensures reply.result.Ok? <==>
      && ValidSubmission(quizIdParam, body) && Parse(quizIdParam).Some?
      && QuestionsOf(db.questions, Parse(quizIdParam).value) != map[]
    ensures reply.result.Err? ==> reply.db == db
    ensures reply.result.Ok? ==>
      var g := reply.result.value;
      var answers := body.answers.value.elems;
      && g.total == |graded| > 0
      && g.correct == |CorrectPositions(answers, AnswerKeys(graded))|
      && 0 <= g.correct <= g.total
      && g.correct <= |answers|
      && g.percentage == Percentage(g.correct, g.total)
      && 0 <= g.percentage <= 100
      && reply.db == db.(attempts := db.attempts[newId :=
           Attempt(Parse(quizIdParam).value, RecordedEmail(body.email), g.total, g.correct, g.percentage, now)])
    ensures AttemptsWellFormed(db.attempts) ==> AttemptsWellFormed(reply.db.attempts)
  {
    graded := [];
    if !ValidSubmission(quizIdParam, body) {
      reply := Reply(db, Err(ValidationFailed));
      return;
    }
    if Parse(quizIdParam).None? {
      reply := Reply(db, Err(Uncaught));
      return;
    }
    var quizId := Parse(quizIdParam).value;
    graded := OrderedQuestions(db.questions, quizId);
    if |graded| == 0 {
      reply := Reply(db, Err(NoQuestions));
      return;
    }
    var answers := body.answers.value.elems;
    var keys := AnswerKeys(graded);
    var correct := CountCorrect(answers, keys);
    var total := |graded|;
    var percentage := Percentage(correct, total);
    var attempt := Attempt(quizId, RecordedEmail(body.email), total, correct, percentage, now);
    reply := Reply(db.(attempts := db.attempts[newId := attempt]), Ok(Graded(total, correct, percentage)));
  }

  /** The store fixes the grading order, so the same submission against the
      same store always gets the same reply. */
  method SubmitDeterministic(db: Db, quizIdParam: string, body: AttemptBody, now: Time, newId: ObjectId)
    returns (first: Reply<Graded>, second: Reply<Graded>)
    requires newId !in db.attempts
    ensures first == second
  {
    var g1, g2;
    first, g1 := Submit(db, quizIdParam, body, now, newId);
    second, g2 := Submit(db, quizIdParam, body, now, newId);
  }

  /** An attempt as the analytics route lists it. */
  datatype AttemptView = AttemptView(email: string, score: int, total: int, percentage: int, createdAt: Time)

  datatype Summary = Summary(
    totalAttempts: int,
    uniqueParticipants: int,
    averageScore: int,
    attempts: seq<AttemptView>)

  function View(a: Attempt): AttemptView
  {
    AttemptView(a.email, a.correct, a.total, a.percentage, a.createdAt)
  }

  /** The email filter `e => e && e !== 'anonymous'`. */
  predicate IsParticipant(email: string)
  {
    email != "" && email != "anonymous"
  }

  /** The distinct participant emails of a list of attempts. */
  function Participants(found: seq<Attempt>): set<string>
  {
    set i | 0 <= i < |found| && IsParticipant(found[i].email) :: found[i].email
  }

  /** The distinct participant emails of stored attempts. */
  function StoredParticipants(attempts: map<ObjectId, Attempt>): set<string>
  {
    set id | id in attempts && IsParticipant(attempts[id].email) :: attempts[id].email
  }

  /** `new Set(attempts.map(a => a.email).filter(...))`, built one attempt at
      a time. */
  function DistinctEmails(found: seq<Attempt>): (r: set<string>)
    ensures r == Participants(found)
    ensures |r| <= |found|
  {
    if |found| == 0 then {}
    else
      var n := |found| - 1;
      var before := DistinctEmails(found[..n]);
      ParticipantsOfLast(found);
      if IsParticipant(found[n].email) then before + {found[n].email} else before
  }

  /** One more attempt adds at most its own email to the participants. */
  lemma ParticipantsOfLast(found: seq<Attempt>)
    requires |found| > 0
    ensures
      var n := |found| - 1;
      Participants(found) ==
        Participants(found[..n]) + (if IsParticipant(found[n].email) then {found[n].email} else {})
  {
    var n := |found| - 1;
    forall e | e in Participants(found)
      ensures e in Participants(found[..n]) + (if IsParticipant(found[n].email) then {found[n].email} else {})
    {
      var i :| 0 <= i < |found| && IsParticipant(found[i].email) && found[i].email == e;
      if i < n {
        assert found[..n][i] == found[i];
      }
    }
    forall e | e in Participants(found[..n])
      ensures e in Participants(found)
    {
      var i :| 0 <= i < n && IsParticipant(found[..n][i].email) && found[..n][i].email == e;
      assert found[i] == found[..n][i];
    }
  }

  /** The sum the reducer `(sum, a) => sum + a.percentage` folds. */
  function SumPercent(found: seq<Attempt>): int
  {
    if |found| == 0 then 0 else SumPercent(found[..|found| - 1]) + found[|found| - 1].percentage
  }

  lemma {:induction false} SumPercentAppend(u: seq<Attempt>, v: seq<Attempt>)
    ensures SumPercent(u + v) == SumPercent(u) + SumPercent(v)
    decreases |v|
  {
    if |v| == 0 {
      assert u + v == u;
    } else {
      var n := |v| - 1;
      assert (u + v)[..|u + v| - 1] == u + v[..n];
      SumPercentAppend(u, v[..n]);
    }
  }

  /** Taking one attempt out of the list takes its percentage out of the sum. */
  lemma {:induction false} SumPercentRemove(b: seq<Attempt>, j: int)
    requires 0 <= j < |b|
    ensures SumPercent(b) == SumPercent(b[..j] + b[j + 1..]) + b[j].percentage
    decreases |b|
  {
    var n := |b| - 1;
    var rest := b[..j] + b[j + 1..];
    if j == n {
      assert rest == b[..n];
    } else {
      var shorter := b[..n];
      SumPercentRemove(shorter, j);
      assert shorter[..j] + shorter[j + 1..] == rest[..|rest| - 1];
      assert rest[|rest| - 1] == b[n];
    }
  }

  /** The sum does not depend on the order the attempts are listed in. */
  lemma {:induction false} SumPercentPermutation(a: seq<Attempt>, b: seq<Attempt>)
    requires multiset(a) == multiset(b)
    ensures SumPercent(a) == SumPercent(b)
    decreases |a|
  {
    if |a| > 0 {
      var n := |a| - 1;
      var x := a[n];
      assert a == a[..n] + [x];
      assert x in multiset(b);
      var j :| 0 <= j < |b| && b[j] == x;
      var rest := b[..j] + b[j + 1..];
      assert b == b[..j] + [x] + b[j + 1..];
      assert multiset(a[..n]) == multiset(a) - multiset{x};
      assert multiset(rest) == multiset(b) - multiset{x};
      SumPercentPermutation(a[..n], rest);
      SumPercentRemove(b, j);
      assert SumPercent(a) == SumPercent(a[..n]) + x.percentage;
    }
  }

  lemma {:induction false} SumPercentBounds(found: seq<Attempt>)
    requires forall i :: 0 <= i < |found| ==> WellFormed(found[i])
    ensures 0 <= SumPercent(found) <= 100 * |found|
  {
    if |found| > 0 {
      SumPercentBounds(found[..|found| - 1]);
    }
  }

  /** `Math.round(sum / totalAttempts)`, or 0 when there are no attempts. */
  function AverageScore(found: seq<Attempt>): (average: int)
    ensures |found| == 0 ==> average == 0
    ensures |found| > 0 ==>
      (2 * average - 1) * |found| <= 2 * SumPercent(found) < (2 * average + 1) * |found|
    ensures (forall i :: 0 <= i < |found| ==> WellFormed(found[i])) ==> 0 <= average <= 100
  {
    var total := |found|;
    if total == 0 then 0
    else
      var average := RoundHalfUp(SumPercent(found), total);
      if forall i :: 0 <= i < |found| ==> WellFormed(found[i]) then
        SumPercentBounds(found);
        RoundHalfUpUnique(100 * total, total, 100);
        RoundHalfUpUnique(0, total, 0);
        RoundHalfUpMonotone(0, SumPercent(found), total);
        RoundHalfUpMonotone(SumPercent(found), 100 * total, total);
        average
      else
        average
  }

  /** The analytics response for the attempts the query returned. */
  function Summarize(found: seq<Attempt>): (s: Summary)
    ensures s.totalAttempts == |found|
    ensures |found| == 0 ==> s == Summary(0, 0, 0, [])
    ensures s.uniqueParticipants == |Participants(found)| <= |found|
    ensures s.averageScore == AverageScore(found)
    ensures |s.attempts| == |found|
    ensures forall i :: 0 <= i < |found| ==> s.attempts[i] == View(found[i])
  {
    Summary(|found|, |DistinctEmails(found)|, AverageScore(found),
      seq(|found|, i requires 0 <= i < |found| => View(found[i])))
  }

  /** The figures do not depend on the order of the attempts. */
  lemma SummaryOrderIndependent(a: seq<Attempt>, b: seq<Attempt>)
    requires multiset(a) == multiset(b)
    ensures Summarize(a).totalAttempts == Summarize(b).totalAttempts
    ensures Summarize(a).uniqueParticipants == Summarize(b).uniqueParticipants
    ensures Summarize(a).averageScore == Summarize(b).averageScore
  {
    assert |a| == |b| by {
      assert |multiset(a)| == |multiset(b)|;
    }
    AverageOrderIndependent(a, b);
    ParticipantsPermutation(a, b);
    ParticipantsPermutation(b, a);
    assert Participants(a) == Participants(b);
  }

  lemma AverageOrderIndependent(a: seq<Attempt>, b: seq<Attempt>)
    requires multiset(a) == multiset(b) && |a| == |b|
    ensures AverageScore(a) == AverageScore(b)
  {
    SumPercentPermutation(a, b);
    if |a| > 0 {
      RoundHalfUpUnique(SumPercent(a), |a|, AverageScore(a));
      RoundHalfUpUnique(SumPercent(b), |b|, AverageScore(b));
    }
  }

  lemma ParticipantsPermutation(a: seq<Attempt>, b: seq<Attempt>)
    requires multiset(a) == multiset(b)
    ensures Participants(a) <= Participants(b)
  {
    forall e | e in Participants(a)
      ensures e in Participants(b)
    {
      var i :| 0 <= i < |a| && IsParticipant(a[i].email) && a[i].email == e;
      assert a[i] in multiset(b);
      var j :| 0 <= j < |b| && b[j] == a[i];
    }
  }

  /** `sort({ createdAt: -1 })` on attempt documents. */
  function ByNewestFirst(e: (ObjectId, Attempt)): int
  {
    NewestFirst(e.1.createdAt)
  }

  /** `find({ quizId }).sort({ createdAt: -1 })` on the attempts collection. */
  method NewestAttempts(attempts: map<ObjectId, Attempt>, quizId: ObjectId)
    returns (found: seq<(ObjectId, Attempt)>)
    ensures Enumerates(found, AttemptsOf(attempts, quizId))
    ensures forall i, j :: 0 <= i < j < |found| ==> found[i].1.createdAt >= found[j].1.createdAt
  {
    var listed := Entries(AttemptsOf(attempts, quizId));
    found := SortBy(listed, ByNewestFirst);
    forall i, j | 0 <= i < j < |found|
      ensures found[i].1.createdAt >= found[j].1.createdAt
    {
      assert ByNewestFirst(found[i]) <= ByNewestFirst(found[j]);
    }
  }

  /** The documents of a query result, without their identifiers. */
  function Documents(found: seq<(ObjectId, Attempt)>): (docs: seq<Attempt>)
    ensures |docs| == |found|
    ensures forall i :: 0 <= i < |found| ==> docs[i] == found[i].1
  {
    seq(|found|, i requires 0 <= i < |found| => found[i].1)
  }

  lemma DocumentsAppend(u: seq<(ObjectId, Attempt)>, v: seq<(ObjectId, Attempt)>)
    ensures Documents(u + v) == Documents(u) + Documents(v)
  {
    assert |Documents(u + v)| == |Documents(u) + Documents(v)|;
    forall i | 0 <= i < |u + v|
      ensures Documents(u + v)[i] == (Documents(u) + Documents(v))[i]
    {
      if i < |u| {
        assert (u + v)[i] == u[i];
      } else {
        assert (u + v)[i] == v[i - |u|];
      }
    }
  }

  /** Taking one entry out of a listing takes its document out of the
      listed attempts. */
  lemma DocumentsRemove(b: seq<(ObjectId, Attempt)>, j: int)
    requires 0 <= j < |b|
    ensures multiset(Documents(b)) == multiset(Documents(b[..j] + b[j + 1..])) + multiset{b[j].1}
  {
    var u, x, v := b[..j], b[j], b[j + 1..];
    assert b == u + [x] + v;
    DocumentsAppend(u + [x], v);
    DocumentsAppend(u, [x]);
    DocumentsAppend(u, v);
    assert Documents([x]) == [x.1];
  }

  /** Listing the same documents in another order lists the same attempts. */
  lemma {:induction false} DocumentsPermutation(a: seq<(ObjectId, Attempt)>, b: seq<(ObjectId, Attempt)>)
    requires multiset(a) == multiset(b)
    ensures multiset(Documents(a)) == multiset(Documents(b))
    decreases |a|
  {
    if |a| > 0 {
      var n := |a| - 1;
      var x := a[n];
      assert x in multiset(b);
      var j :| 0 <= j < |b| && b[j] == x;
      var rest := b[..j] + b[j + 1..];
      assert a == a[..n] + [x];
      assert a[..n] + a[n + 1..] == a[..n];
      assert b == b[..j] + [x] + b[j + 1..];
      assert multiset(a[..n]) == multiset(a) - multiset{x};
      assert multiset(rest) == multiset(b) - multiset{x};
      DocumentsPermutation(a[..n], rest);
      DocumentsRemove(a, n);
      DocumentsRemove(b, j);
    }
  }

  /** Any two listings of the same stored attempts give the same count,
      participants and average. */
  lemma EnumerationsSummarizeAlike(f1: seq<(ObjectId, Attempt)>, f2: seq<(ObjectId, Attempt)>,
                                   stored: map<ObjectId, Attempt>)
    requires Enumerates(f1, stored) && Enumerates(f2, stored)
    ensures Summarize(Documents(f1)).totalAttempts == Summarize(Documents(f2)).totalAttempts
    ensures Summarize(Documents(f1)).uniqueParticipants == Summarize(Documents(f2)).uniqueParticipants
    ensures Summarize(Documents(f1)).averageScore == Summarize(Documents(f2)).averageScore
  {
    DocumentsPermutation(f1, f2);
    SummaryOrderIndependent(Documents(f1), Documents(f2));
  }

  /** The participants counted from a query result are those of the stored
      attempts it enumerates. */
  lemma ParticipantsOfEnumeration(found: seq<(ObjectId, Attempt)>, stored: map<ObjectId, Attempt>)
    requires Enumerates(found, stored)
    ensures Participants(Documents(found)) == StoredParticipants(stored)
    ensures |found| == |stored|
  {
    EnumeratesMembers(found, stored);
    var docs := Documents(found);
    forall e | e in StoredParticipants(stored)
      ensures e in Participants(docs)
    {
      var id :| id in stored && IsParticipant(stored[id].email) && stored[id].email == e;
      assert (id, stored[id]) in found;
      var i :| 0 <= i < |found| && found[i] == (id, stored[id]);
      assert docs[i].email == e;
    }
    forall e | e in Participants(docs)
      ensures e in StoredParticipants(stored)
    {
      var i :| 0 <= i < |docs| && IsParticipant(docs[i].email) && docs[i].email == e;
      assert found[i].0 in stored;
    }
  }

  /** The summary of a query result counts the stored attempts it
      enumerates, and its average is a percentage when they are well formed. */
  lemma SummaryOfEnumeration(found: seq<(ObjectId, Attempt)>, stored: map<ObjectId, Attempt>)
    requires Enumerates(found, stored)
    ensures
      var summary := Summarize(Documents(found));
      && summary.totalAttempts == |stored|
      && summary.uniqueParticipants == |StoredParticipants(stored)| <= |stored|
      && (AttemptsWellFormed(stored) ==> 0 <= summary.averageScore <= 100)
      && (stored == map[] ==> summary == Summary(0, 0, 0, []))
  {
    ParticipantsOfEnumeration(found, stored);
    EnumeratesMembers(found, stored);
    var docs := Documents(found);
    if AttemptsWellFormed(stored) {
      assert forall i :: 0 <= i < |docs| ==> WellFormed(docs[i]) by {
        forall i | 0 <= i < |docs|
          ensures WellFormed(docs[i])
        {
          assert docs[i] == stored[found[i].0];
        }
      }
    }
  }

  /** The analytics route. `found` is the quiz's attempts in the order the
      store sorted them, newest first, which is the order they are listed in. */
  method Analytics(db: Db, quizIdParam: string)
    returns (result: Result<Summary>, found: seq<(ObjectId, Attempt)>)
    ensures !IsMongoId(quizIdParam) ==> result == Err(ValidationFailed)
    ensures IsMongoId(quizIdParam) && Parse(quizIdParam).None? ==> result == Err(Uncaught)
    ensures Parse(quizIdParam).Some? ==>
      var stored := AttemptsOf(db.attempts, Parse(quizIdParam).value);
      && Enumerates(found, stored)
      && (forall i, j :: 0 <= i < j < |found| ==> found[i].1.createdAt >= found[j].1.createdAt)
      && result.Ok?
      && result.value.totalAttempts == |stored|
      && result.value.uniqueParticipants == |StoredParticipants(stored)| <= |stored|
      && result.value.averageScore == AverageScore(Documents(found))
      && (forall other :: Enumerates(other, stored) ==> result.value.averageScore == AverageScore(Documents(other)))
      && (AttemptsWellFormed(db.attempts) ==> 0 <= result.value.averageScore <= 100)
      && |result.value.attempts| == |found|
      && (forall i :: 0 <= i < |found| ==> result.value.attempts[i] == View(found[i].1))
      && (stored == map[] ==> result.value == Summary(0, 0, 0, []))
  {
    found := [];
    if !IsMongoId(quizIdParam) {
      result := Err(ValidationFailed);
      return;
    }
    if Parse(quizIdParam).None? {
      result := Err(Uncaught);
      return;
    }
    var quizId := Parse(quizIdParam).value;
    found := NewestAttempts(db.attempts, quizId);
    var stored := AttemptsOf(db.attempts, quizId);
    SummaryOfEnumeration(found, stored);
    forall other | Enumerates(other, stored)
      ensures AverageScore(Documents(found)) == AverageScore(Documents(other))
    {
      EnumerationsSummarizeAlike(found, other, stored);
    }
    result := Ok(Summarize(Documents(found)));
  }

  /** Whatever order the store lists the attempts in, two requests for the
      same quiz report the same count, participants and average. */
  method AnalyticsFiguresDeterministic(db: Db, quizIdParam: string)
    returns (first: Result<Summary>, second: Result<Summary>)
    ensures first.Ok? == second.Ok?
    ensures first.Ok? ==>
      && first.value.totalAttempts == second.value.totalAttempts
      && first.value.uniqueParticipants == second.value.uniqueParticipants
      && first.value.averageScore == second.value.averageScore
  {
    var f1, f2;
    first, f1 := Analytics(db, quizIdParam);
    second, f2 := Analytics(db, quizIdParam);
  }
}

=== FILE: auth.dfy ===
/** The bearer-token middleware that guards the protected routes: it splits
    the `Authorization` header on spaces, insists on `Bearer <token>`, and
    hands the token to JWT verification, which is a parameter here. */
module Auth {
  import opened Http

  /** The claims a verified token carries. */
  datatype Claims = Claims(sub: string, email: string)

  /** `req.user` as the middleware sets it. */
  datatype User = User(id: string, email: string)

  /** JWT verification with the server's secret: the token's claims, or
      `None` when the signature, expiry or format is rejected. */
  type Verifier = string -> Option<Claims>

  /** Glues parts back together with the separator between them. */
  function Join(parts: seq<string>, sep: char): string
  {
    if |parts| == 0 then ""
    else if |parts| == 1 then parts[0]
    else parts[0] + [sep] + Join(parts[1..], sep)
  }

  /** `s.split(sep)` for a one-character separator: the pieces between
      occurrences of `sep`, including empty ones, so adjacent, leading or
      trailing separators give empty parts. */
  function Split(s: string, sep: char): (parts: seq<string>)
    ensures |parts| >= 1
    ensures forall i :: 0 <= i < |parts| ==> sep !in parts[i]
    ensures Join(parts, sep) == s
  {
    if |s| == 0 then [""]
    else
      var rest := Split(s[1..], sep);
      if s[0] == sep then
        assert s == [sep] + s[1..];
        [""] + rest
      else
        assert s == [s[0]] + s[1..];
        assert sep !in [s[0]] + rest[0];
        [[s[0]] + rest[0]] + rest[1..]
  }

  lemma {:induction false} SplitWithoutSeparator(t: string, sep: char)
    requires sep !in t
    ensures Split(t, sep) == [t]
  {
    if |t| > 0 {
      assert sep !in t[1..];
      SplitWithoutSeparator(t[1..], sep);
      assert [t[0]] + t[1..] == t;
    }
  }

  lemma {:induction false} SplitAfterPiece(a: string, sep: char, t: string)
    requires sep !in a
    ensures Split(a + [sep] + t, sep) == [a] + Split(t, sep)
  {
    var s := a + [sep] + t;
    if |a| == 0 {
      assert s == [sep] + t;
      assert s[1..] == t;
    } else {
      assert s[1..] == a[1..] + [sep] + t;
      assert sep !in a[1..];
      SplitAfterPiece(a[1..], sep, t);
      assert [a[0]] + a[1..] == a;
    }
  }

  /** Splitting undoes joining, for parts free of the separator. */
  lemma {:induction false} SplitJoin(parts: seq<string>, sep: char)
    requires |parts| >= 1
    requires forall i :: 0 <= i < |parts| ==> sep !in parts[i]
    ensures Split(Join(parts, sep), sep) == parts
  {
    if |parts| == 1 {
      SplitWithoutSeparator(parts[0], sep);
    } else {
      assert sep !in parts[0];
      SplitJoin(parts[1..], sep);
      SplitAfterPiece(parts[0], sep, Join(parts[1..], sep));
      assert [parts[0]] + parts[1..] == parts;
    }
  }

  /** `req.headers.authorization || ''`. */
  function HeaderText(header: Option<string>): string
  {
    if header.Some? then header.value else ""
  }

  /** The token the middleware accepts for verification: the header must
      split on single spaces into exactly two parts, the first being
      exactly `Bearer`. */
  function BearerToken(header: Option<string>): (token: Option<string>)
    ensures header.None? ==> token.None?
    ensures token.Some? ==> HeaderText(header) == "Bearer " + token.value && ' ' !in token.value
  {
    var parts := Split(HeaderText(header), ' ');
    if |parts| != 2 || parts[0] != "Bearer" then None
    else
      assert Join(parts, ' ') == parts[0] + " " + parts[1];
      Some(parts[1])
  }

  /** The header shapes that reach verification are exactly `Bearer `
      followed by a space-free token, and that token is what is verified. */
  lemma BearerTokenExactly(header: Option<string>, t: string)
    ensures BearerToken(header) == Some(t) <==> HeaderText(header) == "Bearer " + t && ' ' !in t
  {
    if HeaderText(header) == "Bearer " + t && ' ' !in t {
      assert Join(["Bearer", t], ' ') == "Bearer " + t;
      SplitJoin(["Bearer", t], ' ');
    }
  }

  /** A header with no space after a lone `Bearer`, with two spaces, or
      with a different scheme word never reaches verification. */
  lemma MalformedHeadersRejected(t: string)
    ensures BearerToken(Some("Bearer")) == None
    ensures BearerToken(Some("bearer " + t)) == None
    ensures BearerToken(Some("Bearer  " + t)) == None
  {
    BearerTokenExactly(Some("Bearer"), t);
    var lower := "bearer " + t;
    assert lower[0] == 'b';
    var doubled := "Bearer  " + t;
    assert doubled[7..] == " " + t;
    assert (" " + t)[0] == ' ';
  }

  /** The middleware: 401 unless the header has the bearer shape and its
      token verifies; otherwise the user is the token's subject and email. */
  function Authenticate(header: Option<string>, verify: Verifier): (r: Result<User>)
    ensures header.None? ==> r == Err(Unauthorized)
    ensures r.Err? ==> r.error == Unauthorized
    ensures r.Ok? ==>
      |HeaderText(header)| >= 7 &&
      var t := HeaderText(header)[7..];
      && HeaderText(header) == "Bearer " + t
      && ' ' !in t
      && verify(t) == Some(Claims(r.value.id, r.value.email))
  {
    match BearerToken(header)
    case None => Err(Unauthorized)
    case Some(token) =>
      match verify(token)
      case None => Err(Unauthorized)
      case Some(payload) => Ok(User(payload.sub, payload.email))
  }

  /** Every well-shaped header is decided by verification of its token
      alone: rejected tokens give 401, accepted ones give their claims. */
  lemma AuthenticateDecidedByVerifier(header: Option<string>, verify: Verifier, t: string)
    requires HeaderText(header) == "Bearer " + t && ' ' !in t
    ensures verify(t).None? ==> Authenticate(header, verify) == Err(Unauthorized)
    ensures verify(t).Some? ==>
      Authenticate(header, verify) == Ok(User(verify(t).value.sub, verify(t).value.email))
  {
    BearerTokenExactly(header, t);
  }
}

=== FILE: collect.dfy ===
/** Turning a collection into the list a query returns: the documents in
    some order the store chooses, then sorted on an integer key. */
module Collect {

  /** `s` lists every entry of `m` exactly once. */
  ghost predicate Enumerates<K, V>(s: seq<(K, V)>, m: map<K, V>)
  {
    multiset(s) == multiset(m.Items)
  }

  /** Removing one key takes exactly its entry out of the map's items. */
  lemma ItemsRemove<K, V>(r: map<K, V>, k: K)
    requires k in r
    ensures multiset(r.Items) == multiset((r - {k}).Items) + multiset{(k, r[k])}
  {
    var rest := (r - {k}).Items;
    forall x | x in r.Items
      ensures x in rest + {(k, r[k])}
    {
      assert x.0 in r;
    }
    assert r.Items == rest + {(k, r[k])};
    assert (k, r[k]) !in rest;
  }

  /** Listing the entries of a map, in whatever order the store yields them. */
  method Entries<K, V(==)>(m: map<K, V>) returns (s: seq<(K, V)>)
    ensures Enumerates(s, m)
    ensures |s| == |m|
  {
    s := [];
    var r := m;
    while r != map[]
      invariant multiset(s) + multiset(r.Items) == multiset(m.Items)
      invariant |s| + |r| == |m|
      decreases |r|
    {
      var k :| k in r;
      ItemsRemove(r, k);
      s := s + [(k, r[k])];
      r := r - {k};
    }
    assert r.Items == {};
  }

  /** Membership in an enumeration is membership in the map. */
  lemma EnumeratesMembers<K, V>(s: seq<(K, V)>, m: map<K, V>)
    requires Enumerates(s, m)
    ensures |s| == |m|
    ensures forall i :: 0 <= i < |s| ==> s[i].0 in m && m[s[i].0] == s[i].1
    ensures forall k :: k in m ==> (k, m[k]) in s
  {
    assert |multiset(s)| == |s|;
    assert |multiset(m.Items)| == |m.Items| == |m|;
    forall i | 0 <= i < |s|
      ensures s[i].0 in m && m[s[i].0] == s[i].1
    {
      assert s[i] in multiset(s);
    }
    forall k | k in m
      ensures (k, m[k]) in s
    {
      assert (k, m[k]) in m.Items;
      assert (k, m[k]) in multiset(s);
    }
  }

  /** Non-decreasing in `key`. */
  ghost predicate SortedBy<T>(s: seq<T>, key: T -> int)
  {
    forall i, j :: 0 <= i < j < |s| ==> key(s[i]) <= key(s[j])
  }

  /** Two sorted lists of the same elements are the same list when the key
      has no ties among those elements. */
  lemma {:induction false} SortedUnique<T>(a: seq<T>, b: seq<T>, key: T -> int)
    requires multiset(a) == multiset(b)
    requires SortedBy(a, key) && SortedBy(b, key)
    requires forall i, j :: 0 <= i < |a| && 0 <= j < |a| && key(a[i]) == key(a[j]) ==> a[i] == a[j]
    ensures a == b
    decreases |a|
  {
    assert |a| == |b| by {
      assert |multiset(a)| == |multiset(b)|;
    }
    if |a| > 0 {
      SameHead(a, b, key);
      var a', b' := a[1..], b[1..];
      SameTailElements(a, b);
      forall i, j | 0 <= i < |a'| && 0 <= j < |a'| && key(a'[i]) == key(a'[j])
        ensures a'[i] == a'[j]
      {
        assert a'[i] == a[i + 1] && a'[j] == a[j + 1];
      }
      SortedTail(a, key);
      SortedTail(b, key);
      SortedUnique(a', b', key);
    }
  }

  /** The least element of two sorted lists of the same elements is the same
      when the key has no ties. */
  lemma SameHead<T>(a: seq<T>, b: seq<T>, key: T -> int)
    requires multiset(a) == multiset(b) && |a| > 0
    requires SortedBy(a, key) && SortedBy(b, key)
    requires forall i, j :: 0 <= i < |a| && 0 <= j < |a| && key(a[i]) == key(a[j]) ==> a[i] == a[j]
    ensures |b| > 0 && a[0] == b[0]
  {
    assert a[0] in multiset(b);
    var k :| 0 <= k < |b| && b[k] == a[0];
    assert b[0] in multiset(a);
    var m :| 0 <= m < |a| && a[m] == b[0];
    assert key(a[0]) <= key(a[m]) by {
      if m > 0 {
        assert key(a[0]) <= key(a[m]);
      }
    }
    assert key(b[0]) <= key(b[k]) by {
      if k > 0 {
        assert key(b[0]) <= key(b[k]);
      }
    }
  }

  /** Lists of the same elements with the same head have tails of the same
      elements. */
  lemma SameTailElements<T>(a: seq<T>, b: seq<T>)
    requires multiset(a) == multiset(b) && |a| > 0 && |b| > 0 && a[0] == b[0]
    ensures multiset(a[1..]) == multiset(b[1..])
  {
    assert a == [a[0]] + a[1..] && b == [b[0]] + b[1..];
    assert multiset(a[1..]) == multiset(a) - multiset{a[0]};
    assert multiset(b[1..]) == multiset(b) - multiset{b[0]};
  }

  /** The tail of a sorted list is sorted. */
  lemma SortedTail<T>(a: seq<T>, key: T -> int)
    requires SortedBy(a, key) && |a| > 0
    ensures SortedBy(a[1..], key)
  {
    forall i, j | 0 <= i < j < |a| - 1
      ensures key(a[1..][i]) <= key(a[1..][j])
    {
      assert a[1..][i] == a[i + 1] && a[1..][j] == a[j + 1];
    }
  }

  /** Inserting into a sorted list: the result is sorted, holds exactly one
      more element, and starts with either the new element or the old head. */
  function Insert<T>(x: T, s: seq<T>, key: T -> int): (r: seq<T>)
    requires SortedBy(s, key)
    ensures SortedBy(r, key)
    ensures multiset(r) == multiset(s) + multiset{x}
    ensures r[0] == x || (|s| > 0 && r[0] == s[0])
  {
    if |s| == 0 then [x]
    else if key(x) <= key(s[0]) then [x] + s
    else
      var tail := Insert(x, s[1..], key);
      assert s == [s[0]] + s[1..];
      assert key(s[0]) <= key(tail[0]);
      [s[0]] + tail
  }

  /** Sorting by an integer key: an insertion sort, whose order on equal
      keys is whatever the input order gives. */
  function SortBy<T>(s: seq<T>, key: T -> int): (r: seq<T>)
    ensures SortedBy(r, key)
    ensures multiset(r) == multiset(s)
  {
    if |s| == 0 then []
    else
      assert s == [s[0]] + s[1..];
      Insert(s[0], SortBy(s[1..], key), key)
  }

  /** The size of a union of disjoint sets. */
  lemma DisjointUnionSize<T>(a: set<T>, b: set<T>)
    requires a !! b
    ensures |a + b| == |a| + |b|
  {
    assert a * b == {};
  }
}

=== FILE: http.dfy ===
/** What a route of the quiz API can answer: a value, or one of the refusals
    the Express handlers send, together with the HTTP status each maps to. */
module Http {

  /** An optional value; `None` stands for JavaScript's `undefined`. */
  datatype Option<+T> = None | Some(value: T)

  /** The ways a route refuses a request. */
  datatype ApiError =
    | Unauthorized           // the bearer-token middleware rejected the request
    | ValidationFailed       // express-validator reported at least one error
    | NoQuestions            // an attempt was submitted for a quiz without questions
    | AnswerIndexOutOfRange  // a new question's answer index is not below its option count
    | NotFound               // no document has the requested identifier
    | Uncaught               // the handler threw an exception it does not catch

  datatype Result<+T> = Ok(value: T) | Err(error: ApiError)

  /** The status code the handler (or the error handler, for an uncaught
      exception) sends for each refusal. */
  function StatusCode(e: ApiError): (code: int)
    ensures 400 <= code < 600
    ensures code == 400 <==> e.ValidationFailed? || e.NoQuestions? || e.AnswerIndexOutOfRange?
    ensures code == 401 <==> e.Unauthorized?
    ensures code == 404 <==> e.NotFound?
    ensures code == 500 <==> e.Uncaught?
  {
    match e
    case Unauthorized => 401
    case ValidationFailed => 400
    case NoQuestions => 400
    case AnswerIndexOutOfRange => 400
    case NotFound => 404
    case Uncaught => 500
  }
}

=== FILE: json.dfy ===
/** Request-body values as the JSON body parser hands them to a handler, and
    the two JavaScript notions the handlers apply to them: truthiness and
    strict equality. */
module Json {
  import opened Http

  /** `Number.MAX_SAFE_INTEGER`, 2^53 - 1: up to this bound every integer is
      a double, `String(n)` is its plain decimal text, and `===` on two
      numbers is equality of the integers. */
  const MaxSafeInteger: int := 0x1F_FFFF_FFFF_FFFF

  type SafeInteger = n: int | -MaxSafeInteger <= n <= MaxSafeInteger

  /** A JSON value. Numbers are restricted to the safe integers. */
  datatype Json =
    | JNull
    | JBool(b: bool)
    | JNum(n: SafeInteger)
    | JStr(s: string)
    | JArr(elems: seq<Json>)
    | JObj(fields: map<string, Json>)

  /** A field of a request body; `None` is a field the client left out. */
  type Field = Option<Json>

  /** JavaScript truthiness of a body field: `undefined`, `null`, `false`,
      `0` and the empty string are falsy, every array and object is truthy. */
  predicate Truthy(v: Field)
  {
    match v
    case None => false
    case Some(j) =>
      match j
      case JNull => false
      case JBool(b) => b
      case JNum(n) => n != 0
      case JStr(s) => s != ""
      case JArr(_) => true
      case JObj(_) => true
  }

  /** `typeof v === 'number'`. */
  predicate IsNumber(v: Field)
  {
    v.Some? && v.value.JNum?
  }

  predicate IsPrimitive(j: Json)
  {
    j.JNull? || j.JBool? || j.JNum? || j.JStr?
  }

  /** `a === b` between values decoded from different documents: primitives
      compare by value, while two arrays or objects are distinct references
      and never identical. */
  predicate StrictEquals(a: Json, b: Json)
  {
    match (a, b)
    case (JNull, JNull) => true
    case (JBool(x), JBool(y)) => x == y
    case (JNum(x), JNum(y)) => x == y
    case (JStr(x), JStr(y)) => x == y
    case _ => false
  }

  /** Strict equality is structural equality restricted to primitives. */
  lemma StrictEqualsIsPrimitiveEquality(a: Json, b: Json)
    ensures StrictEquals(a, b) <==> a == b && IsPrimitive(a)
  {
  }
}

=== FILE: objectids.dfy ===
/** Document identifiers: twelve bytes, written as 24 hexadecimal digits.
    A route parameter is first checked with `isMongoId()` and then turned
    into an identifier with `new ObjectId(text)`. The check is looser than
    the constructor: it also lets through a `0x` or `0h` prefix. */
module ObjectIds {
  import opened Http

  predicate IsHexDigit(c: char)
  {
    '0' <= c <= '9' || 'a' <= c <= 'f' || 'A' <= c <= 'F'
  }

  predicate IsLowerHexDigit(c: char)
  {
    '0' <= c <= '9' || 'a' <= c <= 'f'
  }

  predicate AllHex(s: string)
  {
    forall i :: 0 <= i < |s| ==> IsHexDigit(s[i])
  }

  /** A leading `0x` or `0h`, in either case. */
  predicate HasHexPrefix(s: string)
  {
    |s| >= 2 && s[0] == '0' && (s[1] == 'x' || s[1] == 'X' || s[1] == 'h' || s[1] == 'H')
  }

  /** validator.js `isHexadecimal`, the pattern `^(0x|0h)?[0-9a-f]+$` without
      regard to case. */
  predicate IsHexadecimal(s: string)
  {
    (|s| > 0 && AllHex(s)) || (HasHexPrefix(s) && |s| > 2 && AllHex(s[2..]))
  }

  /** `isMongoId()`: hexadecimal text of length 24, the prefix included. */
  predicate IsMongoId(s: string)
  {
    IsHexadecimal(s) && |s| == 24
  }

  /** The text `new ObjectId(text)` accepts: exactly 24 hexadecimal digits. */
  predicate IsHexId(s: string)
  {
    |s| == 24 && AllHex(s)
  }

  /** The text `toString()` gives for an identifier: 24 lower-case digits. */
  predicate IsCanonical(s: string)
  {
    |s| == 24 && forall i :: 0 <= i < |s| ==> IsLowerHexDigit(s[i])
  }

  /** An identifier, represented by its canonical text. */
  type ObjectId = s: string | IsCanonical(s) witness "000000000000000000000000"

  function LowerHex(c: char): (d: char)
    requires IsHexDigit(c)
    ensures IsLowerHexDigit(d)
    ensures IsLowerHexDigit(c) ==> d == c
  {
    if 'A' <= c <= 'F' then (c as int - 'A' as int + 'a' as int) as char else c
  }

  /** `new ObjectId(s)`: the hexadecimal text is read as bytes, so the
      case of its letters is lost. Anything but 24 hexadecimal digits
      makes the constructor throw, which is `None` here. */
  function Parse(s: string): (r: Option<ObjectId>)
    ensures r.Some? <==> IsHexId(s)
    ensures r.Some? ==> IsMongoId(s)
    ensures r.Some? ==> forall i :: 0 <= i < |s| ==> r.value[i] == LowerHex(s[i])
  {
    if IsHexId(s) then
      var t := seq(|s|, i requires 0 <= i < |s| => LowerHex(s[i]));
      Some(t)
    else
      None
  }

  /** A parameter that passed `isMongoId()` makes the constructor throw
      exactly when it carries the prefix. */
  lemma ValidatedIdCases(s: string)
    requires IsMongoId(s)
    ensures Parse(s).None? <==> HasHexPrefix(s)
  {
    if HasHexPrefix(s) {
      assert !IsHexDigit(s[1]);
    }
  }

  /** `0x` followed by 22 zeros passes `isMongoId()`, and then the
      constructor throws. */
  lemma PrefixedIdPassesCheck()
    ensures IsMongoId("0x0000000000000000000000")
    ensures Parse("0x0000000000000000000000").None?
  {
    var s := "0x0000000000000000000000";
    assert HasHexPrefix(s) && AllHex(s[2..]);
    assert !IsHexDigit(s[1]);
  }

  /** Parsing the text of an identifier gives the identifier back. */
  lemma ParseOfCanonical(id: ObjectId)
    ensures Parse(id) == Some(id)
  {
    assert IsHexId(id);
    assert Parse(id).value == id;
  }

  /** Two parameters name the same document exactly when they agree up to
      the case of their letters. */
  lemma ParseIgnoresCase(a: string, b: string)
    requires IsHexId(a) && IsHexId(b)
    ensures Parse(a) == Parse(b) <==> forall i :: 0 <= i < 24 ==> LowerHex(a[i]) == LowerHex(b[i])
  {
    if forall i :: 0 <= i < 24 ==> LowerHex(a[i]) == LowerHex(b[i]) {
      assert Parse(a).value == Parse(b).value;
    }
  }

  function HexDigitValue(c: char): (n: nat)
    requires IsLowerHexDigit(c)
    ensures n < 16
  {
    if '0' <= c <= '9' then c as int - '0' as int else c as int - 'a' as int + 10
  }

  /** The number a string of lower-case hexadecimal digits spells. */
  function HexValue(s: string): nat
    requires forall i :: 0 <= i < |s| ==> IsLowerHexDigit(s[i])
    decreases |s|
  {
    if |s| == 0 then 0 else 16 * HexValue(s[..|s| - 1]) + HexDigitValue(s[|s| - 1])
  }

  /** The position of an identifier in `sort({ _id: 1 })`: its bytes read
      as one big-endian number. */
  function IdOrder(id: ObjectId): nat
  {
    HexValue(id)
  }

  lemma {:induction false} HexValueInjective(a: string, b: string)
    requires |a| == |b|
    requires forall i :: 0 <= i < |a| ==> IsLowerHexDigit(a[i])
    requires forall i :: 0 <= i < |b| ==> IsLowerHexDigit(b[i])
    requires HexValue(a) == HexValue(b)
    ensures a == b
    decreases |a|
  {
    if |a| > 0 {
      var n := |a| - 1;
      LastDigitSplit(HexValue(a[..n]), HexDigitValue(a[n]), HexValue(b[..n]), HexDigitValue(b[n]));
      assert a[n] == b[n];
      HexValueInjective(a[..n], b[..n]);
      assert a == a[..n] + [a[n]] && b == b[..n] + [b[n]];
    }
  }

  /** A base-16 number determines its last digit and the number before it. */
  lemma LastDigitSplit(x: int, d: int, y: int, e: int)
    requires 0 <= d < 16 && 0 <= e < 16
    requires 16 * x + d == 16 * y + e
    ensures x == y && d == e
  {
  }

  /** Distinct identifiers have distinct positions, so sorting by `_id`
      leaves no ties. */
  lemma IdOrderInjective(a: ObjectId, b: ObjectId)
    ensures IdOrder(a) == IdOrder(b) <==> a == b
  {
    if IdOrder(a) == IdOrder(b) {
      HexValueInjective(a, b);
    }
  }
}

=== FILE: questions.dfy ===
/** The question routes: list by quiz, and the authenticated create, partial
    update and delete. None of them checks that the caller owns the quiz,
    and create does not check that the quiz exists. */
module Questions {
  import opened Http
  import opened Json
  import opened Validators
  import opened ObjectIds
  import opened Store
  import opened Auth

  /** The body fields a question route reads; `None` is a field left out. */
  datatype QuestionBody = QuestionBody(text: Field, options: Field, answerIndex: Field)

  /** The invariant create establishes: the answer index is a non-negative
      integer (number or numeric string) below the number of options. */
  predicate AnswerInRange(q: Question)
  {
    IsNonNegativeInt(Some(q.answerIndex)) && NumericValue(q.answerIndex) < |q.options|
  }

  /** `GET /quizzes/:quizId/questions`: every question of the quiz, in the
      store's natural order, which is not modelled. */
  function ListQuestions(db: Db, quizIdParam: string): (r: Result<map<ObjectId, Question>>)
    ensures r == Err(ValidationFailed) <==> !IsMongoId(quizIdParam)
    ensures r == Err(Uncaught) <==> IsMongoId(quizIdParam) && Parse(quizIdParam).None?
    ensures r.Ok? <==> Parse(quizIdParam).Some?
    ensures r.Ok? ==> forall id :: id in r.value <==>
      id in db.questions && db.questions[id].quizId == Parse(quizIdParam).value
    ensures r.Ok? ==> forall id :: id in r.value ==> r.value[id] == db.questions[id]
  {
    if !IsMongoId(quizIdParam) then Err(ValidationFailed)
    else
      match Parse(quizIdParam)
      case None => Err(Uncaught)
      case Some(quizId) => Ok(QuestionsOf(db.questions, quizId))
  }

  /** The create checks: a quiz id, text of at least 3 characters, at least
      two options and a non-negative integer answer index. */
  predicate ValidNewQuestion(quizIdParam: string, body: QuestionBody)
  {
    && IsMongoId(quizIdParam)
    && IsStringOfLength(body.text, 3)
    && IsArrayOfLength(body.options, 2)
    && IsNonNegativeInt(body.answerIndex)
  }

  /** `answerIndex >= options.length` on a body that passed the create checks. */
  predicate AnswerIndexTooLarge(body: QuestionBody)
    requires IsArrayOfLength(body.options, 2) && IsNonNegativeInt(body.answerIndex)
  {
    NumericValue(body.answerIndex.value) >= |body.options.value.elems|
  }

  /** What create does before inserting: the request checks, the range test,
      `new ObjectId` on the quiz id, and then the document to store. */
  function CheckNewQuestion(quizIdParam: string, body: QuestionBody, now: Time): (r: Result<Question>)
    ensures r == Err(ValidationFailed) <==> !ValidNewQuestion(quizIdParam, body)
    ensures r == Err(AnswerIndexOutOfRange) <==> ValidNewQuestion(quizIdParam, body) && AnswerIndexTooLarge(body)
    ensures r == Err(Uncaught) <==>
      ValidNewQuestion(quizIdParam, body) && !AnswerIndexTooLarge(body) && Parse(quizIdParam).None?
    ensures r.Ok? <==>
      ValidNewQuestion(quizIdParam, body) && !AnswerIndexTooLarge(body) && Parse(quizIdParam).Some?
    ensures r.Ok? ==>
      && r.value == Question(Parse(quizIdParam).value, body.text.value.s, body.options.value.elems,
                             body.answerIndex.value, now, now)
      && MeasuredLength(r.value.text) >= 3 && |r.value.options| >= 2
      && AnswerInRange(r.value)
  {
    if !ValidNewQuestion(quizIdParam, body) then Err(ValidationFailed)
    else if AnswerIndexTooLarge(body) then Err(AnswerIndexOutOfRange)
    else
      match Parse(quizIdParam)
      case None => Err(Uncaught)
      case Some(quizId) =>
        Ok(Question(quizId, body.text.value.s, body.options.value.elems, body.answerIndex.value, now, now))
  }

  /** `POST /quizzes/:quizId/questions`. The range test comes before the
      quiz id is turned into an identifier. */
  function CreateQuestion(db: Db, header: Option<string>, verify: Verifier, quizIdParam: string,
                          body: QuestionBody, now: Time, newId: ObjectId): (reply: Reply<ObjectId>)
    requires newId !in db.questions
    ensures reply.result.Err? ==> reply.db == db
    ensures reply.result == Err(Unauthorized) <==> Authenticate(header, verify).Err?
    ensures reply.result == Err(ValidationFailed) <==>
      Authenticate(header, verify).Ok? && !ValidNewQuestion(quizIdParam, body)
    ensures reply.result == Err(AnswerIndexOutOfRange) <==>
      Authenticate(header, verify).Ok? && ValidNewQuestion(quizIdParam, body) && AnswerIndexTooLarge(body)
    ensures reply.result == Err(Uncaught) <==>
      && Authenticate(header, verify).Ok? && ValidNewQuestion(quizIdParam, body) && !AnswerIndexTooLarge(body)
      && Parse(quizIdParam).None?
    ensures reply.result.Ok? <==>
      && Authenticate(header, verify).Ok? && ValidNewQuestion(quizIdParam, body) && !AnswerIndexTooLarge(body)
      && Parse(quizIdParam).Some?
    ensures reply.result.Ok? ==>
      && reply.result.value == newId
      && reply.db.quizzes == db.quizzes
      && reply.db.attempts == db.attempts
      && reply.db.questions.Keys == db.questions.Keys + {newId}
      && (forall id :: id in db.questions ==> reply.db.questions[id] == db.questions[id])
      && var q := reply.db.questions[newId];
      && q == Question(Parse(quizIdParam).value, body.text.value.s, body.options.value.elems,
                       body.answerIndex.value, now, now)
      && MeasuredLength(q.text) >= 3 && |q.options| >= 2
      && AnswerInRange(q)
  {
    match Authenticate(header, verify)
    case Err(e) => Reply(db, Err(e))
    case Ok(_) =>
      match CheckNewQuestion(quizIdParam, body, now)
      case Err(e) => Reply(db, Err(e))
      case Ok(q) => Reply(db.(questions := db.questions[newId := q]), Ok(newId))
  }

  /** Create does not look the quiz up: a question can be added under an
      identifier no quiz has. */
  lemma CreateIgnoresQuizExistence(db: Db, header: Option<string>, verify: Verifier, quizIdParam: string,
                                   body: QuestionBody, now: Time, newId: ObjectId)
    requires newId !in db.questions
    requires Authenticate(header, verify).Ok? && ValidNewQuestion(quizIdParam, body)
    requires !AnswerIndexTooLarge(body)
    requires Parse(quizIdParam).Some? && Parse(quizIdParam).value !in db.quizzes
    ensures CreateQuestion(db, header, verify, quizIdParam, body, now, newId).result == Ok(newId)
    ensures CreateQuestion(db, header, verify, quizIdParam, body, now, newId).db.questions[newId].quizId
      !in db.quizzes
  {
  }

  /** The update checks: every field is optional, but a given text must be
      a string, given options an array of at least two, and a given answer
      index a non-negative integer. */
  predicate ValidPatch(idParam: string, body: QuestionBody)
  {
    && IsMongoId(idParam)
    && (body.text.None? || IsString(body.text))
    && (body.options.None? || IsArrayOfLength(body.options, 2))
    && (body.answerIndex.None? || IsNonNegativeInt(body.answerIndex))
  }

  /** The `$set` document of an update applied to a question: text and
      options when truthy, the answer index when it is a number, and always
      the update time. */
  function ApplyPatch(q: Question, body: QuestionBody, now: Time): Question
  {
    q.(text := if Truthy(body.text) && body.text.value.JStr? then body.text.value.s else q.text,
       options := if Truthy(body.options) && body.options.value.JArr? then body.options.value.elems else q.options,
       answerIndex := if IsNumber(body.answerIndex) then body.answerIndex.value else q.answerIndex,
       updatedAt := now)
  }

  /** `PUT /questions/:id`. */
  function UpdateQuestion(db: Db, header: Option<string>, verify: Verifier, idParam: string,
                          body: QuestionBody, now: Time): (reply: Reply<()>)
    ensures reply.result.Err? ==> reply.db == db
    ensures reply.result == Err(Unauthorized) <==> Authenticate(header, verify).Err?
    ensures reply.result == Err(ValidationFailed) <==>
      Authenticate(header, verify).Ok? && !ValidPatch(idParam, body)
    ensures reply.result == Err(Uncaught) <==>
      Authenticate(header, verify).Ok? && ValidPatch(idParam, body) && Parse(idParam).None?
    ensures reply.result == Err(NotFound) <==>
      && Authenticate(header, verify).Ok? && ValidPatch(idParam, body)
      && Parse(idParam).Some? && Parse(idParam).value !in db.questions
    ensures reply.result.Ok? <==>
      && Authenticate(header, verify).Ok? && ValidPatch(idParam, body)
      && Parse(idParam).Some? && Parse(idParam).value in db.questions
    ensures reply.result.Ok? ==>
      var id := Parse(idParam).value;
      && reply.db.quizzes == db.quizzes
      && reply.db.attempts == db.attempts
      && reply.db.questions.Keys == db.questions.Keys
      && (forall other :: other in db.questions && other != id ==>
            reply.db.questions[other] == db.questions[other])
      && var before := db.questions[id];
      && var after := reply.db.questions[id];
      && after.quizId == before.quizId
      && after.createdAt == before.createdAt
      && after.updatedAt == now
      && after.text == (if Truthy(body.text) then body.text.value.s else before.text)
      && after.options == (if body.options.Some? then body.options.value.elems else before.options)
      && after.answerIndex == (if IsNumber(body.answerIndex) then body.answerIndex.value else before.answerIndex)
  {
    match Authenticate(header, verify)
    case Err(e) => Reply(db, Err(e))
    case Ok(_) =>
      if !ValidPatch(idParam, body) then Reply(db, Err(ValidationFailed))
      else
        match Parse(idParam)
        case None => Reply(db, Err(Uncaught))
        case Some(id) =>
          if id !in db.questions then Reply(db, Err(NotFound))
          else Reply(db.(questions := db.questions[id := ApplyPatch(db.questions[id], body, now)]), Ok(()))
  }

  /** An answer index of 0 is applied even though 0 is falsy, while an
      empty text leaves the stored text alone. */
  lemma UpdateTruthinessQuirks(db: Db, header: Option<string>, verify: Verifier, idParam: string,
                               options: Field, now: Time)
    requires Authenticate(header, verify).Ok? && Parse(idParam).Some?
    requires Parse(idParam).value in db.questions
    requires options.None? || IsArrayOfLength(options, 2)
    ensures
      var reply := UpdateQuestion(db, header, verify, idParam, QuestionBody(Some(JStr("")), options, Some(JNum(0))), now);
      var id := Parse(idParam).value;
      && reply.result == Ok(())
      && reply.db.questions[id].answerIndex == JNum(0)
      && reply.db.questions[id].text == db.questions[id].text
  {
    NonNegativeIntCases(Some(JNum(0)));
  }

  /** A numeric string answer index passes the update checks but, not being
      of type number, is silently not applied. */
  lemma UpdateIgnoresStringAnswerIndex(db: Db, header: Option<string>, verify: Verifier, idParam: string, now: Time)
    requires Authenticate(header, verify).Ok? && Parse(idParam).Some?
    requires Parse(idParam).value in db.questions
    ensures
      var reply := UpdateQuestion(db, header, verify, idParam, QuestionBody(None, None, Some(JStr("1"))), now);
      var id := Parse(idParam).value;
      && reply.result == Ok(())
      && reply.db.questions[id].answerIndex == db.questions[id].answerIndex
  {
    assert IsIntText("1") && IntTextValue("1") == 1 by {
      assert "1"[..0] == [];
    }
  }

  /** The update does not recheck the answer index against the options, so
      a question that satisfied the create invariant can lose it. */
  lemma UpdateCanBreakAnswerRange(db: Db, header: Option<string>, verify: Verifier, idParam: string, now: Time)
    requires Authenticate(header, verify).Ok? && Parse(idParam).Some?
    requires Parse(idParam).value in db.questions
    requires |db.questions[Parse(idParam).value].options| <= 5
    ensures
      var reply := UpdateQuestion(db, header, verify, idParam, QuestionBody(None, None, Some(JNum(5))), now);
      && reply.result == Ok(())
      && !AnswerInRange(reply.db.questions[Parse(idParam).value])
  {
    NonNegativeIntCases(Some(JNum(5)));
  }

  /** Sending the same update twice at the same time leaves the store as
      sending it once. */
  lemma UpdateIdempotent(db: Db, header: Option<string>, verify: Verifier, idParam: string,
                         body: QuestionBody, now: Time)
    requires UpdateQuestion(db, header, verify, idParam, body, now).result.Ok?
    ensures
      var once := UpdateQuestion(db, header, verify, idParam, body, now);
      UpdateQuestion(once.db, header, verify, idParam, body, now) == once
  {
  }

  /** `DELETE /questions/:id`. */
  function DeleteQuestion(db: Db, header: Option<string>, verify: Verifier, idParam: string): (reply: Reply<()>)
    ensures reply.result.Err? ==> reply.db == db
    ensures reply.result == Err(Unauthorized) <==> Authenticate(header, verify).Err?
    ensures reply.result == Err(ValidationFailed) <==> Authenticate(header, verify).Ok? && !IsMongoId(idParam)
    ensures reply.result == Err(Uncaught) <==>
      Authenticate(header, verify).Ok? && IsMongoId(idParam) && Parse(idParam).None?
    ensures reply.result == Err(NotFound) <==>
      Authenticate(header, verify).Ok? && Parse(idParam).Some? && Parse(idParam).value !in db.questions
    ensures reply.result.Ok? <==>
      Authenticate(header, verify).Ok? && Parse(idParam).Some? && Parse(idParam).value in db.questions
    ensures reply.result.Ok? ==>
      && reply.db.questions.Keys == db.questions.Keys - {Parse(idParam).value}
      && (forall id :: id in reply.db.questions ==> reply.db.questions[id] == db.questions[id])
      && reply.db.quizzes == db.quizzes
      && reply.db.attempts == db.attempts
  {
    match Authenticate(header, verify)
    case Err(e) => Reply(db, Err(e))
    case Ok(_) =>
      if !IsMongoId(idParam) then Reply(db, Err(ValidationFailed))
      else
        match Parse(idParam)
        case None => Reply(db, Err(Uncaught))
        case Some(id) =>
          if id !in db.questions then Reply(db, Err(NotFound))
          else Reply(db.(questions := db.questions - {id}), Ok(()))
  }

  /** After a create, listing its quiz gives the questions listed before
      plus the new one. */
  lemma CreateThenListQuestions(db: Db, header: Option<string>, verify: Verifier, quizIdParam: string,
                                body: QuestionBody, now: Time, newId: ObjectId)
    requires newId !in db.questions
    requires CreateQuestion(db, header, verify, quizIdParam, body, now, newId).result.Ok?
    ensures
      var created := CreateQuestion(db, header, verify, quizIdParam, body, now, newId).db;
      var before := ListQuestions(db, quizIdParam);
      var listed := ListQuestions(created, quizIdParam);
      && before.Ok? && listed.Ok?
      && listed.value.Keys == before.value.Keys + {newId}
      && listed.value[newId] == created.questions[newId]
      && forall id :: id in before.value ==> listed.value[id] == before.value[id]
  {
    var created := CreateQuestion(db, header, verify, quizIdParam, body, now, newId).db;
    var before := ListQuestions(db, quizIdParam);
    var listed := ListQuestions(created, quizIdParam);
    assert listed.value.Keys == before.value.Keys + {newId};
  }

  /** Deleting a question just created gives back the store as it was. */
  lemma CreateThenDeleteQuestion(db: Db, header: Option<string>, verify: Verifier, quizIdParam: string,
                                 body: QuestionBody, now: Time, newId: ObjectId)
    requires newId !in db.questions
    requires CreateQuestion(db, header, verify, quizIdParam, body, now, newId).result.Ok?
    ensures
      var created := CreateQuestion(db, header, verify, quizIdParam, body, now, newId).db;
      DeleteQuestion(created, header, verify, newId) == Reply(db, Ok(()))
  {
    var created := CreateQuestion(db, header, verify, quizIdParam, body, now, newId).db;
    ParseOfCanonical(newId);
    assert created.questions - {newId} == db.questions;
  }

  /** After a delete, listing any quiz gives what it listed before, less the
      deleted question. */
  lemma DeleteThenListQuestions(db: Db, header: Option<string>, verify: Verifier, idParam: string,
                                quizIdParam: string)
    requires DeleteQuestion(db, header, verify, idParam).result.Ok?
    ensures
      var after := DeleteQuestion(db, header, verify, idParam).db;
      var before := ListQuestions(db, quizIdParam);
      var listed := ListQuestions(after, quizIdParam);
      && listed.Ok? == before.Ok?
      && (listed.Ok? ==> listed.value == before.value - {Parse(idParam).value})
  {
    var id := Parse(idParam).value;
    assert DeleteQuestion(db, header, verify, idParam).db.questions == db.questions - {id};
    if Parse(quizIdParam).Some? {
      QuestionsOfRemove(db.questions, id, Parse(quizIdParam).value);
    }
  }
}

=== FILE: quizzes.dfy ===
/** The quiz routes: the caller's own quizzes newest first, create with
    defaults, read by anyone, truthy-field update, and delete cascading to
    the quiz's questions. Update and delete do not check ownership. */
module Quizzes {
  import opened Http
  import opened Json
  import opened Validators
  import opened ObjectIds
  import opened Store
  import opened Collect
  import opened Auth

  datatype QuizBody = QuizBody(title: Field, description: Field)

  /** A quiz as the list route projects it: `_id`, title, description,
      creation time and owner. */
  datatype QuizSummary = QuizSummary(
    id: ObjectId,
    title: string,
    description: string,
    createdAt: Time,
    ownerId: ObjectId)

  function Project(e: (ObjectId, Quiz)): QuizSummary
  {
    QuizSummary(e.0, e.1.title, e.1.description, e.1.createdAt, e.1.ownerId)
  }

  /** `sort({ createdAt: -1 })` on quiz documents. */
  function ByNewestFirst(e: (ObjectId, Quiz)): int
  {
    NewestFirst(e.1.createdAt)
  }

  /** `new ObjectId(req.user.id)` for an authenticated caller; the token's
      subject need not be valid identifier text, and then it throws. */
  function OwnerOf(user: User): Result<ObjectId>
  {
    match Parse(user.id)
    case None => Err(Uncaught)
    case Some(owner) => Ok(owner)
  }

  /** `GET /quizzes`: the caller's quizzes, projected, newest first. */
  method ListQuizzes(db: Db, header: Option<string>, verify: Verifier) returns (result: Result<seq<QuizSummary>>)
    ensures result == Err(Unauthorized) <==> Authenticate(header, verify).Err?
    ensures result == Err(Uncaught) <==>
      Authenticate(header, verify).Ok? && Parse(Authenticate(header, verify).value.id).None?
    ensures result.Ok? <==>
      Authenticate(header, verify).Ok? && Parse(Authenticate(header, verify).value.id).Some?
    ensures result.Ok? ==>
      var owner := Parse(Authenticate(header, verify).value.id).value;
      var mine := QuizzesOf(db.quizzes, owner);
      var items := result.value;
      && |items| == |mine|
      && (forall i :: 0 <= i < |items| ==> items[i].id in mine && items[i] == Project((items[i].id, mine[items[i].id])))
      && (forall id :: id in mine ==> Project((id, mine[id])) in items)
      && (forall i :: 0 <= i < |items| ==> items[i].ownerId == owner)
      && (forall i, j :: 0 <= i < j < |items| ==> items[i].createdAt >= items[j].createdAt)
  {
    var auth := Authenticate(header, verify);
    if auth.Err? {
      return Err(Unauthorized);
    }
    var owner := OwnerOf(auth.value);
    if owner.Err? {
      return Err(Uncaught);
    }
    var mine := QuizzesOf(db.quizzes, owner.value);
    var listed := Entries(mine);
    var sorted := SortBy(listed, ByNewestFirst);
    var items := seq(|sorted|, i requires 0 <= i < |sorted| => Project(sorted[i]));
    ProjectedListing(sorted, mine, owner.value, items);
    result := Ok(items);
  }

  /** The projection of a sorted enumeration of one owner's quizzes lists
      each of them once, newest first. */
  lemma ProjectedListing(sorted: seq<(ObjectId, Quiz)>, mine: map<ObjectId, Quiz>, owner: ObjectId,
                         items: seq<QuizSummary>)
    requires Enumerates(sorted, mine) && SortedBy(sorted, ByNewestFirst)
    requires forall id :: id in mine ==> mine[id].ownerId == owner
    requires |items| == |sorted| && forall i :: 0 <= i < |sorted| ==> items[i] == Project(sorted[i])
    ensures |items| == |mine|
    ensures forall i :: 0 <= i < |items| ==> items[i].id in mine && items[i] == Project((items[i].id, mine[items[i].id]))
    ensures forall id :: id in mine ==> Project((id, mine[id])) in items
    ensures forall i :: 0 <= i < |items| ==> items[i].ownerId == owner
    ensures forall i, j :: 0 <= i < j < |items| ==> items[i].createdAt >= items[j].createdAt
  {
    EnumeratesMembers(sorted, mine);
    forall i, j | 0 <= i < j < |items|
      ensures items[i].createdAt >= items[j].createdAt
    {
      assert ByNewestFirst(sorted[i]) <= ByNewestFirst(sorted[j]);
    }
    forall id | id in mine
      ensures Project((id, mine[id])) in items
    {
      var i :| 0 <= i < |sorted| && sorted[i] == (id, mine[id]);
      assert items[i] == Project((id, mine[id]));
    }
  }

  /** The create checks: a title of at least 3 characters and, when given,
      a string description. */
  predicate ValidNewQuiz(body: QuizBody)
  {
    IsStringOfLength(body.title, 3) && (body.description.None? || IsString(body.description))
  }

  /** `req.body.description || ''`. */
  function DescriptionOrEmpty(description: Field): string
  {
    if Truthy(description) && description.value.JStr? then description.value.s else ""
  }

  /** What create does before inserting: the body checks, then
      `new ObjectId` on the caller's id, then the document to store. */
  function CheckNewQuiz(user: User, body: QuizBody, now: Time): (r: Result<Quiz>)
    ensures r == Err(ValidationFailed) <==> !ValidNewQuiz(body)
    ensures r == Err(Uncaught) <==> ValidNewQuiz(body) && Parse(user.id).None?
    ensures r.Ok? <==> ValidNewQuiz(body) && Parse(user.id).Some?
    ensures r.Ok? ==>
      && r.value.ownerId == Parse(user.id).value
      && r.value.title == body.title.value.s
      && MeasuredLength(r.value.title) >= 3
      && r.value.description == (if body.description.None? then "" else body.description.value.s)
      && r.value.createdAt == now && r.value.updatedAt == now
  {
    if !ValidNewQuiz(body) then Err(ValidationFailed)
    else
      match OwnerOf(user)
      case Err(e) => Err(e)
      case Ok(owner) => Ok(Quiz(body.title.value.s, DescriptionOrEmpty(body.description), owner, now, now))
  }

  /** `POST /quizzes`. */
  function CreateQuiz(db: Db, header: Option<string>, verify: Verifier, body: QuizBody,
                      now: Time, newId: ObjectId): (reply: Reply<ObjectId>)
    requires newId !in db.quizzes
    ensures reply.result.Err? ==> reply.db == db
    ensures reply.result == Err(Unauthorized) <==> Authenticate(header, verify).Err?
    ensures reply.result == Err(ValidationFailed) <==> Authenticate(header, verify).Ok? && !ValidNewQuiz(body)
    ensures reply.result == Err(Uncaught) <==>
      Authenticate(header, verify).Ok? && ValidNewQuiz(body) && Parse(Authenticate(header, verify).value.id).None?
    ensures reply.result.Ok? <==>
      Authenticate(header, verify).Ok? && ValidNewQuiz(body) && Parse(Authenticate(header, verify).value.id).Some?
    ensures reply.result.Ok? ==>
      && reply.result.value == newId
      && reply.db.questions == db.questions
      && reply.db.attempts == db.attempts
      && reply.db.quizzes.Keys == db.quizzes.Keys + {newId}
      && (forall id :: id in db.quizzes ==> reply.db.quizzes[id] == db.quizzes[id])
      && var q := reply.db.quizzes[newId];
      && q.ownerId == Parse(Authenticate(header, verify).value.id).value
      && q.title == body.title.value.s
      && MeasuredLength(q.title) >= 3
      && q.description == (if body.description.None? then "" else body.description.value.s)
      && q.createdAt == now && q.updatedAt == now
  {
    match Authenticate(header, verify)
    case Err(e) => Reply(db, Err(e))
    case Ok(user) =>
      match CheckNewQuiz(user, body, now)
      case Err(e) => Reply(db, Err(e))
      case Ok(q) => Reply(db.(quizzes := db.quizzes[newId := q]), Ok(newId))
  }

  /** `GET /quizzes/:id`: any caller, authenticated or not, may read any quiz. */
  function GetQuiz(db: Db, idParam: string): (r: Result<(ObjectId, Quiz)>)
    ensures r == Err(ValidationFailed) <==> !IsMongoId(idParam)
    ensures r == Err(Uncaught) <==> IsMongoId(idParam) && Parse(idParam).None?
    ensures r == Err(NotFound) <==> Parse(idParam).Some? && Parse(idParam).value !in db.quizzes
    ensures r.Ok? <==> Parse(idParam).Some? && Parse(idParam).value in db.quizzes
    ensures r.Ok? ==> r == Ok((Parse(idParam).value, db.quizzes[Parse(idParam).value]))
  {
    if !IsMongoId(idParam) then Err(ValidationFailed)
    else
      match Parse(idParam)
      case None => Err(Uncaught)
      case Some(id) => if id !in db.quizzes then Err(NotFound) else Ok((id, db.quizzes[id]))
  }

  /** Reading back a quiz just created, by the text of the identifier
      create answered with, finds exactly the stored document. */
  lemma CreateThenGet(db: Db, header: Option<string>, verify: Verifier, body: QuizBody,
                      now: Time, newId: ObjectId)
    requires newId !in db.quizzes
    requires CreateQuiz(db, header, verify, body, now, newId).result.Ok?
    ensures
      var created := CreateQuiz(db, header, verify, body, now, newId);
      && created.result == Ok(newId)
      && GetQuiz(created.db, newId) == Ok((newId, created.db.quizzes[newId]))
      && GetQuiz(created.db, newId).value.1.title == body.title.value.s
  {
    ParseOfCanonical(newId);
  }

  /** Create changes what a read answers only for the new identifier. */
  lemma CreateLeavesOtherQuizzes(db: Db, header: Option<string>, verify: Verifier, body: QuizBody,
                                 now: Time, newId: ObjectId, idParam: string)
    requires newId !in db.quizzes
    requires Parse(idParam) != Some(newId)
    ensures GetQuiz(CreateQuiz(db, header, verify, body, now, newId).db, idParam) == GetQuiz(db, idParam)
  {
  }

  /** An id with the `0x` prefix passes `isMongoId()`, so the request is not
      refused with 400; the handler then throws in `new ObjectId`. */
  lemma PrefixedIdThrows(db: Db)
    ensures GetQuiz(db, "0x0000000000000000000000") == Err(Uncaught)
  {
    PrefixedIdPassesCheck();
  }

  /** The update checks: title and description are optional strings, with
      no length rule. */
  predicate ValidQuizPatch(idParam: string, body: QuizBody)
  {
    && IsMongoId(idParam)
    && (body.title.None? || IsString(body.title))
    && (body.description.None? || IsString(body.description))
  }

  /** The `$set` document: title and description when truthy, and always
      the update time. */
  function ApplyQuizPatch(q: Quiz, body: QuizBody, now: Time): Quiz
  {
    q.(title := if Truthy(body.title) && body.title.value.JStr? then body.title.value.s else q.title,
       description := if Truthy(body.description) && body.description.value.JStr? then body.description.value.s else q.description,
       updatedAt := now)
  }

  /** `PUT /quizzes/:id`. */
  function UpdateQuiz(db: Db, header: Option<string>, verify: Verifier, idParam: string,
                      body: QuizBody, now: Time): (reply: Reply<()>)
    ensures reply.result.Err? ==> reply.db == db
    ensures reply.result == Err(Unauthorized) <==> Authenticate(header, verify).Err?
    ensures reply.result == Err(ValidationFailed) <==>
      Authenticate(header, verify).Ok? && !ValidQuizPatch(idParam, body)
    ensures reply.result == Err(Uncaught) <==>
      Authenticate(header, verify).Ok? && ValidQuizPatch(idParam, body) && Parse(idParam).None?
    ensures reply.result == Err(NotFound) <==>
      && Authenticate(header, verify).Ok? && ValidQuizPatch(idParam, body)
      && Parse(idParam).Some? && Parse(idParam).value !in db.quizzes
    ensures reply.result.Ok? <==>
      && Authenticate(header, verify).Ok? && ValidQuizPatch(idParam, body)
      && Parse(idParam).Some? && Parse(idParam).value in db.quizzes
    ensures reply.result.Ok? ==>
      var id := Parse(idParam).value;
      && reply.db.questions == db.questions
      && reply.db.attempts == db.attempts
      && reply.db.quizzes.Keys == db.quizzes.Keys
      && (forall other :: other in db.quizzes && other != id ==> reply.db.quizzes[other] == db.quizzes[other])
      && var before := db.quizzes[id];
      && var after := reply.db.quizzes[id];
      && after.ownerId == before.ownerId
      && after.createdAt == before.createdAt
      && after.updatedAt == now
      && after.title == (if Truthy(body.title) then body.title.value.s else before.title)
      && after.description == (if Truthy(body.description) then body.description.value.s else before.description)
  {
    match Authenticate(header, verify)
    case Err(e) => Reply(db, Err(e))
    case Ok(_) =>
      if !ValidQuizPatch(idParam, body) then Reply(db, Err(ValidationFailed))
      else
        match Parse(idParam)
        case None => Reply(db, Err(Uncaught))
        case Some(id) =>
          if id !in db.quizzes then Reply(db, Err(NotFound))
          else Reply(db.(quizzes := db.quizzes[id := ApplyQuizPatch(db.quizzes[id], body, now)]), Ok(()))
  }

  /** Only creation checks the title length: an update may store a title
      of fewer than 3 characters, and an empty one is ignored. */
  lemma UpdateTitleLengthUnchecked(db: Db, header: Option<string>, verify: Verifier, idParam: string, now: Time)
    requires Authenticate(header, verify).Ok? && Parse(idParam).Some?
    requires Parse(idParam).value in db.quizzes
    ensures
      var id := Parse(idParam).value;
      var short := UpdateQuiz(db, header, verify, idParam, QuizBody(Some(JStr("ab")), None), now);
      var empty := UpdateQuiz(db, header, verify, idParam, QuizBody(Some(JStr("")), None), now);
      && short.result == Ok(())
      && |short.db.quizzes[id].title| < 3
      && empty.result == Ok(())
      && empty.db.quizzes[id].title == db.quizzes[id].title
  {
  }

  /** Update and delete never look at who the caller is: any two
      authenticated callers get the same outcome. */
  lemma MutationsIgnoreCaller(db: Db, h1: Option<string>, v1: Verifier, h2: Option<string>, v2: Verifier,
                              idParam: string, body: QuizBody, now: Time)
    requires Authenticate(h1, v1).Ok? && Authenticate(h2, v2).Ok?
    ensures UpdateQuiz(db, h1, v1, idParam, body, now) == UpdateQuiz(db, h2, v2, idParam, body, now)
    ensures DeleteQuiz(db, h1, v1, idParam) == DeleteQuiz(db, h2, v2, idParam)
  {
  }

  /** `DELETE /quizzes/:id`: the quiz, then every question that names it.
      The questions go only when the quiz itself was found. */
  function DeleteQuiz(db: Db, header: Option<string>, verify: Verifier, idParam: string): (reply: Reply<()>)
    ensures reply.result.Err? ==> reply.db == db
    ensures reply.result == Err(Unauthorized) <==> Authenticate(header, verify).Err?
    ensures reply.result == Err(ValidationFailed) <==> Authenticate(header, verify).Ok? && !IsMongoId(idParam)
    ensures reply.result == Err(Uncaught) <==>
      Authenticate(header, verify).Ok? && IsMongoId(idParam) && Parse(idParam).None?
    ensures reply.result == Err(NotFound) <==>
      Authenticate(header, verify).Ok? && Parse(idParam).Some? && Parse(idParam).value !in db.quizzes
    ensures reply.result.Ok? <==>
      Authenticate(header, verify).Ok? && Parse(idParam).Some? && Parse(idParam).value in db.quizzes
    ensures reply.result.Ok? ==>
      var id := Parse(idParam).value;
      && reply.db.quizzes.Keys == db.quizzes.Keys - {id}
      && (forall other :: other in reply.db.quizzes ==> reply.db.quizzes[other] == db.quizzes[other])
      && (forall q :: q in reply.db.questions <==> q in db.questions && db.questions[q].quizId != id)
      && (forall q :: q in reply.db.questions ==> reply.db.questions[q] == db.questions[q])
      && reply.db.attempts == db.attempts
  {
    match Authenticate(header, verify)
    case Err(e) => Reply(db, Err(e))
    case Ok(_) =>
      if !IsMongoId(idParam) then Reply(db, Err(ValidationFailed))
      else
        match Parse(idParam)
        case None => Reply(db, Err(Uncaught))
        case Some(id) =>
          if id !in db.quizzes then Reply(db, Err(NotFound))
          else
            Reply(Db(db.quizzes - {id}, db.questions - QuestionsOf(db.questions, id).Keys, db.attempts), Ok(()))
  }

  /** After a successful delete the quiz's question list is empty, and the
      questions removed are exactly the ones it listed before. */
  lemma DeleteEmptiesQuestionList(db: Db, header: Option<string>, verify: Verifier, idParam: string)
    requires DeleteQuiz(db, header, verify, idParam).result.Ok?
    ensures
      var after := DeleteQuiz(db, header, verify, idParam).db;
      var id := Parse(idParam).value;
      && QuestionsOf(after.questions, id) == map[]
      && after.questions.Keys == db.questions.Keys - QuestionsOf(db.questions, id).Keys
      && |after.questions| == |db.questions| - |QuestionsOf(db.questions, id)|
  {
    CascadeSplit(db.questions, Parse(idParam).value);
  }

  /** Taking a quiz's questions out of a collection leaves none that name
      it, and removes exactly as many as it had. */
  lemma CascadeSplit(before: map<ObjectId, Question>, id: ObjectId)
    ensures
      var gone := QuestionsOf(before, id);
      var after := before - gone.Keys;
      && QuestionsOf(after, id) == map[]
      && after.Keys == before.Keys - gone.Keys
      && |after| == |before| - |gone|
  {
    var gone := QuestionsOf(before, id);
    var after := before - gone.Keys;
    assert before.Keys == after.Keys + gone.Keys;
    DisjointUnionSize(after.Keys, gone.Keys);
    assert QuestionsOf(after, id).Keys == {};
  }
}

=== FILE: scoring.dfy ===
/** Grading a submitted attempt: positional comparison of the answers with
    the answer keys of the quiz's questions, and the rounded percentage. */
module Scoring {
  import opened Json

  /** The positions `i` the grading loop counts: those below both lengths
      whose answer is strictly equal (`===`) to the question's key. */
  function CorrectPositions(answers: seq<Json>, keys: seq<Json>): set<int>
  {
    set i | 0 <= i < |keys| && i < |answers| && StrictEquals(answers[i], keys[i])
  }

  /** The counted positions below `n`. */
  function CorrectBelow(answers: seq<Json>, keys: seq<Json>, n: int): set<int>
  {
    set i | 0 <= i < n && i < |keys| && i < |answers| && StrictEquals(answers[i], keys[i])
  }

  function Min(a: int, b: int): int
  {
    if a <= b then a else b
  }

  /** The positions `0 .. n-1`. */
  function Range(n: nat): (r: set<int>)
    ensures forall i :: i in r <==> 0 <= i < n
    ensures |r| == n
  {
    if n == 0 then {} else Range(n - 1) + {n - 1}
  }

  lemma SubsetSize<T>(a: set<T>, b: set<T>)
    requires a <= b
    ensures |a| <= |b|
    ensures |a| == |b| ==> a == b
  {
    assert b == a + (b - a);
    assert |b| == |a| + |b - a|;
  }

  /** The grading loop: for each position below both lengths, one point
      when the answer is strictly equal to the key. */
  method CountCorrect(answers: seq<Json>, keys: seq<Json>) returns (score: nat)
    ensures score == |CorrectPositions(answers, keys)|
    ensures score <= |keys| && score <= |answers|
  {
    score := 0;
    var n := Min(|answers|, |keys|);
    var i := 0;
    while i < n
      invariant 0 <= i <= n
      invariant score == |CorrectBelow(answers, keys, i)|
      invariant score <= i
    {
      if StrictEquals(answers[i], keys[i]) {
        assert CorrectBelow(answers, keys, i + 1) == CorrectBelow(answers, keys, i) + {i};
        score := score + 1;
      } else {
        assert CorrectBelow(answers, keys, i + 1) == CorrectBelow(answers, keys, i);
      }
      i := i + 1;
    }
    assert CorrectBelow(answers, keys, n) == CorrectPositions(answers, keys);
  }

  /** The number of correct answers never exceeds the number of questions
      nor the number of answers. */
  lemma CorrectCountBounds(answers: seq<Json>, keys: seq<Json>)
    ensures |CorrectPositions(answers, keys)| <= |keys|
    ensures |CorrectPositions(answers, keys)| <= |answers|
  {
    var n := Min(|answers|, |keys|);
    SubsetSize(CorrectPositions(answers, keys), Range(n));
  }

  /** Answers beyond the last question are never looked at. */
  lemma ExtraAnswersIgnored(answers: seq<Json>, extra: seq<Json>, keys: seq<Json>)
    requires |answers| >= |keys|
    ensures CorrectPositions(answers + extra, keys) == CorrectPositions(answers, keys)
  {
    forall i | 0 <= i < |keys|
      ensures (answers + extra)[i] == answers[i]
    {
    }
  }

  /** A missing answer simply scores nothing: the points of a short answer
      list are those it earns as a prefix of any longer one. */
  lemma MissingAnswersScoreNothing(answers: seq<Json>, more: seq<Json>, keys: seq<Json>)
    ensures CorrectPositions(answers, keys) == CorrectPositions(answers + more, keys) * Range(|answers|)
  {
    forall i | 0 <= i < |answers|
      ensures (answers + more)[i] == answers[i]
    {
    }
  }

  /** Full marks exactly when every question has a strictly equal answer. */
  lemma AllCorrectIff(answers: seq<Json>, keys: seq<Json>)
    ensures |CorrectPositions(answers, keys)| == |keys| <==>
      |answers| >= |keys| && forall i :: 0 <= i < |keys| ==> StrictEquals(answers[i], keys[i])
  {
    var c := CorrectPositions(answers, keys);
    assert c <= Range(|keys|);
    SubsetSize(c, Range(|keys|));
    if |c| == |keys| {
      assert c == Range(|keys|);
      if |keys| > 0 {
        assert |keys| - 1 in c;
      }
      forall i | 0 <= i < |keys|
        ensures StrictEquals(answers[i], keys[i])
      {
        assert i in c;
      }
    }
    if |answers| >= |keys| && forall i :: 0 <= i < |keys| ==> StrictEquals(answers[i], keys[i]) {
      assert c == Range(|keys|);
    }
  }

  /** No points exactly when no position holds a strictly equal answer. */
  lemma NoneCorrectIff(answers: seq<Json>, keys: seq<Json>)
    ensures |CorrectPositions(answers, keys)| == 0 <==>
      forall i :: 0 <= i < |keys| && i < |answers| ==> !StrictEquals(answers[i], keys[i])
  {
    if exists i :: 0 <= i < |keys| && i < |answers| && StrictEquals(answers[i], keys[i]) {
      var i :| 0 <= i < |keys| && i < |answers| && StrictEquals(answers[i], keys[i]);
      assert i in CorrectPositions(answers, keys);
    }
  }

  /** A key stored as the string `"1"` is never matched by the number `1`,
      and vice versa: strict equality does not convert. */
  lemma NumberNeverMatchesNumericString(answers: seq<Json>, keys: seq<Json>, i: int)
    requires 0 <= i < |keys| && i < |answers|
    requires answers[i].JNum? && keys[i].JStr?
    ensures i !in CorrectPositions(answers, keys)
  {
  }

  /** `Math.round(num / den)` for a positive `den`: the nearest integer,
      halves rounded up. */
  function RoundHalfUp(num: int, den: int): (r: int)
    requires den > 0
    ensures (2 * r - 1) * den <= 2 * num < (2 * r + 1) * den
  {
    var q := (2 * num + den) / (2 * den);
    var m := (2 * num + den) % (2 * den);
    assert 2 * num + den == q * (2 * den) + m && 0 <= m < 2 * den;
    assert 2 * num == 2 * q * den + m - den;
    q
  }

  /** Multiplying by a positive factor preserves strict order. */
  lemma MulMonotone(a: int, b: int, d: int)
    requires d > 0 && a * d < b * d
    ensures a < b
  {
    if a >= b {
      MulNonStrict(b, a, d);
    }
  }

  lemma MulNonStrict(a: int, b: int, d: int)
    requires d > 0 && a <= b
    ensures a * d <= b * d
  {
    assert b * d == a * d + (b - a) * d;
  }

  /** The rounding bounds determine the result: no other integer meets them. */
  lemma RoundHalfUpUnique(num: int, den: int, q: int)
    requires den > 0
    requires (2 * q - 1) * den <= 2 * num < (2 * q + 1) * den
    ensures q == RoundHalfUp(num, den)
  {
    var r := RoundHalfUp(num, den);
    MulMonotone(2 * q - 1, 2 * r + 1, den);
    MulMonotone(2 * r - 1, 2 * q + 1, den);
  }

  /** Rounding preserves order. */
  lemma RoundHalfUpMonotone(a: int, b: int, den: int)
    requires den > 0 && a <= b
    ensures RoundHalfUp(a, den) <= RoundHalfUp(b, den)
  {
    var ra := RoundHalfUp(a, den);
    var rb := RoundHalfUp(b, den);
    MulMonotone(2 * ra - 1, 2 * rb + 1, den);
  }

  /** `Math.round(correct / total * 100)`, computed exactly. */
  function Percentage(correct: int, total: int): (p: int)
    requires total > 0
    ensures 0 <= correct <= total ==> 0 <= p <= 100
    ensures correct == total ==> p == 100
    ensures correct == 0 ==> p == 0
  {
    var p := RoundHalfUp(100 * correct, total);
    if correct == total then
      RoundHalfUpUnique(100 * correct, total, 100);
      p
    else if correct == 0 then
      RoundHalfUpUnique(0, total, 0);
      p
    else if 0 <= correct <= total then
      PercentageBounds(correct, total, p);
      p
    else
      p
  }

  lemma PercentageBounds(correct: int, total: int, p: int)
    requires total > 0 && 0 <= correct <= total
    requires (2 * p - 1) * total <= 2 * (100 * correct) < (2 * p + 1) * total
    ensures 0 <= p <= 100
  {
    MulNonStrict(correct, total, 200);
    MulMonotone(0, 2 * p + 1, total);
    MulMonotone(2 * p - 1, 201, total);
  }

  /** Rounding reaches the extremes before the count does: the score is 100
      exactly when at least 99.5% of the questions are correct, and 0
      exactly when fewer than 0.5% are. */
  lemma PercentageExtremes(correct: int, total: int)
    requires total > 0 && 0 <= correct <= total
    ensures Percentage(correct, total) == 100 <==> 200 * correct >= 199 * total
    ensures Percentage(correct, total) == 0 <==> 200 * correct < total
  {
    if 200 * correct >= 199 * total {
      RoundHalfUpUnique(100 * correct, total, 100);
    }
    if 200 * correct < total {
      RoundHalfUpUnique(100 * correct, total, 0);
    }
  }

  /** With 201 questions, 200 correct already scores 100 and 1 correct
      still scores 0. */
  lemma RoundedExtremesExample()
    ensures Percentage(200, 201) == 100
    ensures Percentage(1, 201) == 0
  {
    PercentageExtremes(200, 201);
    PercentageExtremes(1, 201);
  }

  /** Three questions keyed 0, 1, 2 answered with 0, 1: two correct, 67%. */
  lemma ShortAnswerExample()
    ensures |CorrectPositions([JNum(0), JNum(1)], [JNum(0), JNum(1), JNum(2)])| == 2
    ensures Percentage(2, 3) == 67
  {
    assert CorrectPositions([JNum(0), JNum(1)], [JNum(0), JNum(1), JNum(2)]) == {0, 1};
    RoundHalfUpUnique(200, 3, 67);
  }
}

=== FILE: store.dfy ===
/** The three document collections the routes read and write, each a map
    from identifier to document, and the queries the routes run on them. */
module Store {
  import opened Http
  import opened Json
  import opened ObjectIds

  /** A `Date`, as milliseconds. */
  type Time = int

  /** The integer key that puts `sort({ createdAt: -1 })` in ascending order:
      a later creation time has a smaller key. */
  function NewestFirst(createdAt: Time): int
  {
    -createdAt
  }

  datatype Quiz = Quiz(
    title: string,
    description: string,
    ownerId: ObjectId,
    createdAt: Time,
    updatedAt: Time)

  /** A question; `options` and `answerIndex` are kept exactly as the client
      sent them. */
  datatype Question = Question(
    quizId: ObjectId,
    text: string,
    options: seq<Json>,
    answerIndex: Json,
    createdAt: Time,
    updatedAt: Time)

  datatype Attempt = Attempt(
    quizId: ObjectId,
    email: string,
    total: int,
    correct: int,
    percentage: int,
    createdAt: Time)

  datatype Db = Db(
    quizzes: map<ObjectId, Quiz>,
    questions: map<ObjectId, Question>,
    attempts: map<ObjectId, Attempt>)

  /** The store after a request, and what the route answered. */
  datatype Reply<+T> = Reply(db: Db, result: Result<T>)

  /** `find({ <field>: value })` on a collection: the documents whose `key` field holds `value`. */
  function Find<D>(docs: map<ObjectId, D>, key: D -> ObjectId, value: ObjectId): (r: map<ObjectId, D>)
    ensures r.Keys <= docs.Keys
    ensures forall id :: id in r ==> r[id] == docs[id] && key(r[id]) == value
    ensures forall id :: id in docs && key(docs[id]) == value ==> id in r
  {
    map id | id in docs && key(docs[id]) == value :: docs[id]
  }

  /** `find({ quizId })` on the questions collection. */
  function QuestionsOf(questions: map<ObjectId, Question>, quizId: ObjectId): (r: map<ObjectId, Question>)
    ensures forall id :: id in r <==> id in questions && questions[id].quizId == quizId
    ensures forall id :: id in r ==> r[id] == questions[id]
  {
    Find(questions, (q: Question) => q.quizId, quizId)
  }

  /** Removing a document removes it from every quiz's questions. */
  lemma QuestionsOfRemove(questions: map<ObjectId, Question>, id: ObjectId, quizId: ObjectId)
    ensures QuestionsOf(questions - {id}, quizId) == QuestionsOf(questions, quizId) - {id}
  {
    assert QuestionsOf(questions - {id}, quizId).Keys == (QuestionsOf(questions, quizId) - {id}).Keys;
  }

  /** `find({ quizId })` on the attempts collection. */
  function AttemptsOf(attempts: map<ObjectId, Attempt>, quizId: ObjectId): (r: map<ObjectId, Attempt>)
    ensures forall id :: id in r <==> id in attempts && attempts[id].quizId == quizId
    ensures forall id :: id in r ==> r[id] == attempts[id]
  {
    Find(attempts, (a: Attempt) => a.quizId, quizId)
  }

  /** `find({ ownerId })` on the quizzes collection. */
  function QuizzesOf(quizzes: map<ObjectId, Quiz>, ownerId: ObjectId): (r: map<ObjectId, Quiz>)
    ensures forall id :: id in r <==> id in quizzes && quizzes[id].ownerId == ownerId
    ensures forall id :: id in r ==> r[id] == quizzes[id]
  {
    Find(quizzes, (q: Quiz) => q.ownerId, ownerId)
  }
}

=== FILE: validators.dfy ===
/** The express-validator checks the routes apply to body fields, stated on
    the JSON values they receive. A value is first turned into text the way
    the library does (`String(n)` for a number) and the text is checked. */
module Validators {
  import opened Http
  import opened Json

  /** `isString()`. */
  predicate IsString(v: Field)
  {
    v.Some? && v.value.JStr?
  }

  /** The variation selectors U+FE0E and U+FE0F, which `isLength` skips. */
  predicate IsVariationSelector(c: char)
  {
    c == '\U{FE0E}' || c == '\U{FE0F}'
  }

  /** The length `isLength` measures. It takes the UTF-16 length, subtracts
      one per surrogate pair and one per variation selector. A character here
      is a Unicode scalar value, so the first two steps give the number of
      characters, and only the selectors remain to be left out. */
  function MeasuredLength(s: string): (n: nat)
    ensures n <= |s|
    decreases |s|
  {
    if |s| == 0 then 0
    else MeasuredLength(s[..|s| - 1]) + (if IsVariationSelector(s[|s| - 1]) then 0 else 1)
  }

  /** Without variation selectors the measured length is the character count. */
  lemma {:induction false} MeasuredLengthWithoutSelectors(s: string)
    requires forall i :: 0 <= i < |s| ==> !IsVariationSelector(s[i])
    ensures MeasuredLength(s) == |s|
    decreases |s|
  {
    if |s| > 0 {
      MeasuredLengthWithoutSelectors(s[..|s| - 1]);
    }
  }

  /** A trailing selector adds nothing: three characters can measure two. */
  lemma SelectorNotMeasured()
    ensures MeasuredLength("ab\U{FE0F}") == 2
  {
    assert "ab\U{FE0F}"[..2] == "ab";
    assert "ab"[..1] == "a";
    assert "a"[..0] == "";
  }

  /** `isString().isLength({ min })`. */
  predicate IsStringOfLength(v: Field, min: nat)
  {
    IsString(v) && MeasuredLength(v.value.s) >= min
  }

  /** `isArray({ min })`. */
  predicate IsArrayOfLength(v: Field, min: nat)
  {
    v.Some? && v.value.JArr? && |v.value.elems| >= min
  }

  predicate IsDigit(c: char)
  {
    '0' <= c <= '9'
  }

  predicate AllDigits(d: string)
  {
    forall i :: 0 <= i < |d| ==> IsDigit(d[i])
  }

  /** The integer syntax `isInt` accepts by default: an optional sign and one
      or more decimal digits, leading zeros allowed. */
  predicate IsIntText(s: string)
  {
    if |s| > 0 && (s[0] == '+' || s[0] == '-') then |s| > 1 && AllDigits(s[1..])
    else |s| > 0 && AllDigits(s)
  }

  function DigitValue(c: char): (n: nat)
    requires IsDigit(c)
    ensures n < 10
  {
    c as int - '0' as int
  }

  function DigitChar(n: nat): (c: char)
    requires n < 10
    ensures IsDigit(c) && DigitValue(c) == n
  {
    ('0' as int + n) as char
  }

  /** The value of a string of decimal digits. */
  function DigitsValue(d: string): nat
    requires AllDigits(d)
    decreases |d|
  {
    if |d| == 0 then 0 else 10 * DigitsValue(d[..|d| - 1]) + DigitValue(d[|d| - 1])
  }

  /** `Number(s)` for a text in integer syntax. */
  function IntTextValue(s: string): int
    requires IsIntText(s)
  {
    if s[0] == '-' then 0 - DigitsValue(s[1..]) as int
    else if s[0] == '+' then DigitsValue(s[1..])
    else DigitsValue(s)
  }

  /** The decimal digits of a natural number, most significant first. */
  function DecimalDigits(n: nat): (d: string)
    ensures |d| > 0 && AllDigits(d)
  {
    if n < 10 then [DigitChar(n)] else DecimalDigits(n / 10) + [DigitChar(n % 10)]
  }

  /** `String(n)` for an integer `n`. */
  function Decimal(n: int): string
  {
    if n < 0 then "-" + DecimalDigits(-n) else DecimalDigits(n)
  }

  /** Reading back the digits of a natural number yields the number. */
  lemma {:induction false} DecimalDigitsRoundTrip(n: nat)
    ensures DigitsValue(DecimalDigits(n)) == n
  {
    if n >= 10 {
      var d := DecimalDigits(n);
      var prefix := DecimalDigits(n / 10);
      assert d == prefix + [DigitChar(n % 10)];
      assert d[..|d| - 1] == prefix;
      DecimalDigitsRoundTrip(n / 10);
    }
  }

  /** `String(n)` is integer text whose value is `n`. */
  lemma DecimalRoundTrip(n: int)
    ensures IsIntText(Decimal(n))
    ensures IntTextValue(Decimal(n)) == n
  {
    if n < 0 {
      var d := Decimal(n);
      assert d[1..] == DecimalDigits(-n);
      DecimalDigitsRoundTrip(-n);
    } else {
      DecimalDigitsRoundTrip(n);
    }
  }

  /** The text test behind `isInt({ min: 0 })`. */
  predicate IsNonNegativeIntText(s: string)
  {
    IsIntText(s) && IntTextValue(s) >= 0
  }

  /** `isInt({ min: 0 })` on a body field: numbers are checked through
      their decimal text, strings directly; `null`, booleans, arrays,
      objects and a missing field fail. */
  predicate IsNonNegativeInt(v: Field)
  {
    match v
    case Some(JNum(n)) => IsNonNegativeIntText(Decimal(n))
    case Some(JStr(s)) => IsNonNegativeIntText(s)
    case _ => false
  }

  /** On numbers the text round trip makes `isInt({ min: 0 })` the plain
      bound, while a string passes exactly when it spells such a number. */
  lemma NonNegativeIntCases(v: Field)
    ensures v.Some? && v.value.JNum? ==> (IsNonNegativeInt(v) <==> v.value.n >= 0)
    ensures v.Some? && v.value.JStr? ==> (IsNonNegativeInt(v) <==> IsNonNegativeIntText(v.value.s))
    ensures v.None? || !(v.value.JNum? || v.value.JStr?) ==> !IsNonNegativeInt(v)
  {
    if v.Some? && v.value.JNum? {
      DecimalRoundTrip(v.value.n);
    }
  }

  /** The number JavaScript's `>=` compares when a validated answer index,
      number or numeric string, meets `options.length`. */
  function NumericValue(j: Json): (n: int)
    requires IsNonNegativeInt(Some(j))
    ensures n >= 0
    ensures j.JNum? ==> n == j.n
  {
    if j.JNum? then
      DecimalRoundTrip(j.n);
      j.n
    else
      IntTextValue(j.s)
  }
}
